=== FILE: README.md ===
# Event scheduling backend and its two Redux slices, modelled in Dafny

The repository is an Express + Mongoose service for scheduling events across
timezones. Events are assigned to user profiles, and every full update of an
event writes an audit record holding the event as it was before and after.
Profiles carry a preferred zone, and a small session endpoint stores which
profiles a caller is "acting as". A React frontend keeps events and profiles
in two Redux slices.

The project models this as pure transitions:

- **Store** (`store.dfy`): the database is a value `Db(events, profiles, logs)`. Events and profiles are maps keyed by id, and the audit log is a sequence in insertion order.
- **Handlers**: every HTTP handler is a function (a method where it must sort the keys of a map) from the store and the request to an `Outcome`. An `Outcome` is the new store plus a `Response(status, success, message, data)`.
- **Inputs as parameters**: "now", fresh document ids and the timezone library are passed in. The library is a `TzLib` value that supplies the zone list, date parsing, formatting and zone shifting.
- **Request values**: when a handler inspects a JSON value itself (`typeof`, `Array.isArray`, truthiness), the value is a `Json` datatype with JavaScript truthiness. Event bodies are typed optional strings.
- **Documents** (`models.dfy`): the three Mongoose documents, with their `trim` setters, `required` validators, defaults, and the pre-save hook that stamps `updated_at`.
  - `save()` and `create()` run that hook and the validators.
  - `findByIdAndUpdate` runs neither. So PATCH, profile update, zone update and the session write never refresh `updated_at`, and PATCH validates nothing.
- **Validators**: the zod request schemas and the frontend's `isValidEventRange` are predicates. Lemmas set the strict schema against the non-strict helper, and each schema against the handler it would guard.
- **Reducers**: the two slices' reducers are functions on an immutable state, with "nothing else changes" contracts. A record from the API is `Doc(id, body)`, because the reducers only ever read `_id`.

Behaviours of the code that are reproduced as they are, not corrected:

- `createEvent` sends the zone under the key `timezone`, which is not a path of the event schema (its path is `eventTimezone`). Every created event is therefore stored with `eventTimezone == "UTC"` (`EventController.CreateIgnoresTimezone`).
- `updateEvent` saves the merged event before it writes the audit record. A request without `updatedBy` writes `null` into the record's required `updatedBy` path, so the record is refused: the update stays saved, no record is written, and the answer is 500 (`EventController.UpdateWithoutActorSavesButFails`).
- `assignProfilesToEvent` compares the number of distinct stored profiles found with the length of the request list. A list that repeats an id is therefore refused with 400 (`EventController.AssignRejectsDuplicates`).
- `getProfileEvents` reads `createdAt` / `updatedAt`, but the event documents have `created_at` / `updated_at`. Both local timestamps are therefore always null (`ProfileController.Shape`).
- PATCH runs no validators, so a blank title is stored as the empty string (`EventController.PatchSkipsValidation`).

Further facts about the code that the model keeps:

- Creating an event checks neither the order of the two instants nor the zone.
- Creating a profile does not check the zone against any list.
- Updating a profile keeps the old `updated_at`. Patching an event keeps it too, unless the body sets it.
- Assigning a list with a repeated id fails.
- The profile-events view replaces the zone field with the viewer's zone, and projects only the start and end instants.
- The log queries take `userTimezone` as the query-string parser gives it (a string, an array or an object). Any truthy value asks for a zone, and the zone is `String(value)`, so `?userTimezone[]=` asks for the zone "".
- Every handler that writes keeps each document stored under its own id, and the audit write keeps log ids unique.

## Model

| member | source | states |
|---|---|---|
| `Js.Trim` | backend/src/models/event.model.ts:17-21 | The `trim` setter never lengthens its input, and its result neither starts nor ends with whitespace. |
| `Js.TrimIsSlice` | backend/src/models/event.model.ts:17-21 | What the `trim` setter keeps is a contiguous slice of the input, and everything it cut off on either side is whitespace. |
| `Js.TrimEmptyIff` | backend/src/controllers/profile.controller.ts:23 | `name.trim()` is falsy exactly when the name is whitespace only. |
| `Js.TrimIdempotent` | backend/src/controllers/profile.controller.ts:97-98 | Trimming a value the handler already trimmed (the schema setter) changes nothing. |
| `Js.ToJsString` | backend/src/controllers/profile.controller.ts:29 | `String(v)` of a non-array value other than the empty string is never empty. |
| `Seqs.Dedup` | backend/src/controllers/event.controller.ts:236-238 | `Array.from(new Set(list))` has no repetitions and the same members as its input. |
| `Seqs.DedupPrefix` | backend/src/controllers/event.controller.ts:236-238 | The set-union of `a` then `b` starts with the union of `a` alone, and every later entry comes from `b` and not from `a`. |
| `Seqs.ElemsCard` | backend/src/controllers/event.controller.ts:230-231 | A list has at most as many distinct members as entries, with equality exactly when it has no repetition. |
| `Seqs.SortBy` | backend/src/controllers/profile.controller.ts:141 | Sorting returns a permutation of its input, ordered by the key. |
| `Seqs.FindIndex` | event-management-frontend/src/features/event/eventSlice.ts:57 | `findIndex` is -1 exactly when nothing matches, and otherwise the first match. |
| `Models.CastDates` | backend/src/controllers/event.controller.ts:128-129 | Casting a body fails exactly when one of its four date paths (start, end, `created_at`, `updated_at`) does not parse. Otherwise each given date becomes its parsed instant, absent ones stay absent, and the other paths pass through unchanged. |
| `Models.SaveEvent` | backend/src/models/event.model.ts:62-65 | A save succeeds exactly when the required title and zone are non-empty. It then sets `updated_at` to now and changes nothing else. |
| `Models.CreateEventDoc` | backend/src/models/event.model.ts:16-60 | A new event has a trimmed title, which is required, and a trimmed description. The zone defaults to "UTC" and profiles to []. The dates are required, `created_at` defaults to now, and `updated_at` is now whatever was given, because the save hook overrides it. |
| `Models.EventAllowsAnyRange` | backend/src/models/event.model.ts:38-45 | The event document stores any two instants as given, whatever their order. |
| `Models.CreateLogDoc` | backend/src/models/eventlogs.model.ts:13-53 | A log is created exactly when eventId, updatedBy, before and after are all given. `timestampUtc` defaults to now, and both timestamps are now. |
| `Models.SaveProfile` | backend/src/models/user.model.ts:34-37 | A profile save succeeds exactly when name and zone are non-empty. It then refreshes `updated_at` and changes nothing else. |
| `Models.CreateProfileDoc` | backend/src/models/user.model.ts:10-31 | A new profile has a trimmed name, which is required, a zone defaulting to "UTC", no session list, and `created_at` equal to now. |
| `Store.KeysWhere` | backend/src/controllers/profile.controller.ts:137-138 | `find(filter)` yields each stored event that satisfies the filter exactly once. |
| `Store.SortedKeysWhere` | backend/src/controllers/profile.controller.ts:137-141 | `find(filter).sort({startUtc: 1})` yields each matching event once, in ascending order of start. |
| `EventController.PayloadOf` | backend/src/controllers/event.controller.ts:36-44 | The create payload carries the zone under `timezone` (default "UTC") and never under `eventTimezone`. Profiles default to []. |
| `EventController.CreateEvent` | backend/src/controllers/event.controller.ts:17-52 | 400, with the store unchanged, exactly when title, start or end is falsy. 201 exactly when both dates parse, the trimmed title is non-empty and the id is fresh. The stored event then has zone "UTC", profiles defaulting to [], and the parsed instants with no order check. Every other case is 500. A store with every document under its own id stays so. |
| `EventController.CreateIgnoresTimezone` | backend/src/controllers/event.controller.ts:42 | The zone sent under `timezone` has no effect on what create stores or answers. |
| `EventController.GetEventById` | backend/src/controllers/event.controller.ts:81-102 | 404 exactly when the id is absent; otherwise 200 with the stored event. |
| `EventController.CreateThenGet` | backend/src/controllers/event.controller.ts:36-46 | After a successful create, reading the new id returns the created event. |
| `EventController.DeleteUndoesCreate` | backend/src/controllers/event.controller.ts:182-201 | Deleting a just-created event restores the store as it was before the create, and a read of its id is then 404. |
| `EventController.GetAllEvents` | backend/src/controllers/event.controller.ts:58-75 | Lists every stored event exactly once, in ascending order of start. |
| `EventController.Actor` | backend/src/controllers/event.controller.ts:136 | The audit actor is null exactly when the request's `updatedBy` is falsy, and is that value otherwise. |
| `EventController.UpdateEvent` | backend/src/controllers/event.controller.ts:109-148 | 404 with nothing written when the event is absent. Once the merge saves, the stored event is the merged one whatever happens to the log. 200 exactly when the merge saves, `updatedBy` is present and the log id is fresh. Only then is exactly one record appended, holding that event id, the actor, the pre-image as `before`, the stored event as `after`, and now as its timestamp. |
| `EventController.UpdateWithoutActorSavesButFails` | backend/src/controllers/event.controller.ts:129-145 | Without `updatedBy`, a merge that saves stays stored with a fresh `updated_at`, the log is untouched, and the answer is 500. |
| `EventController.UpdateKeepsAbsentFields` | backend/src/controllers/event.controller.ts:125-140 | After a successful PUT, every path the body leaves out keeps its prior value. A given `created_at` is stored as sent and a given title is stored trimmed. `updated_at` is the save time even when the body gives one, because the pre-save hook runs after the merge. |
| `EventController.PatchEvent` | backend/src/controllers/event.controller.ts:154-176 | 500 on a date that does not cast, then 404 for an absent event. Otherwise the body is applied in place. `updated_at` keeps its prior value unless the body gives one, and then it is that value. The log and the profiles are never touched. |
| `EventController.PatchSkipsValidation` | backend/src/controllers/event.controller.ts:162-164 | PATCH stores a blank title as "", which a save would have refused. |
| `EventController.DeleteEvent` | backend/src/controllers/event.controller.ts:182-201 | 404 exactly when the event is absent. Otherwise only that event is removed, and the log and the other events stay. |
| `EventController.StringItems` | backend/src/controllers/event.controller.ts:229-231 | The id list is read as a list of strings exactly when every entry is a string, and then keeps every entry in order. |
| `EventController.AllFoundIff` | backend/src/controllers/event.controller.ts:230-233 | The count of distinct stored profiles found equals the list length exactly when the list has no repetition and every id is stored. |
| `EventController.NullEntryFailsCount` | backend/src/controllers/event.controller.ts:229-231 | The query casts a null entry to null, which names no profile. So with a null in the list, the number of distinct stored profiles found is always below the list length, and the request is refused. |
| `EventController.MergeIds` | backend/src/controllers/event.controller.ts:235-238 | The merged list has no repetition and holds exactly the prior and the new ids. The prior ones come first, then the new ones not already there. |
| `EventController.AssignProfiles` | backend/src/controllers/event.controller.ts:207-249 | The checks run in order: 400 for a non-array or empty list, 404 for an absent event, and 500 for an entry that is neither a string nor null. A list with a null entry is then refused with 400, as is one whose ids repeat or name no stored profile. 500 when the event fails its own validation on save. On 200 the stored list is the merge and only the list and `updated_at` change. |
| `EventController.AssignRejectsDuplicates` | backend/src/controllers/event.controller.ts:229-233 | Any list of string ids with a repetition is refused with 400 for an existing event, even when every id names a stored profile, and nothing changes. |
| `EventController.AssignIdempotent` | backend/src/controllers/event.controller.ts:236-241 | Repeating a successful assign succeeds and leaves the assigned list as it was. |
| `EventController.AssignKeepsExistingOrder` | backend/src/controllers/event.controller.ts:236-238 | When the stored list has no repetition, a successful assign keeps it as a prefix. |
| `EventController.WithoutId` | backend/src/controllers/event.controller.ts:268-270 | After filtering, no occurrence of the id is left and every other id is kept. |
| `EventController.WithoutIdKeepsOrder` | backend/src/controllers/event.controller.ts:268-270 | Filtering distributes over concatenation, so the remaining ids keep their order. |
| `EventController.WithoutIdNoOp` | backend/src/controllers/event.controller.ts:268-270 | Removing an id that is not assigned changes nothing, and removing twice is removing once. |
| `EventController.UnassignProfile` | backend/src/controllers/event.controller.ts:255-280 | 404 exactly when the event is absent. Otherwise the list loses every occurrence of the id, with no error for a non-member, and only the list and `updated_at` change. |
| `EventLogController.LogsOf` | backend/src/controllers/eventLog.controller.ts:24-27 | The query returns exactly the records of that event, each as often as stored, newest first. |
| `EventLogController.Decorate` | backend/src/controllers/eventLog.controller.ts:30-37 | With a zone, each record is returned unchanged beside its local timestamp. |
| `EventLogController.Plain` | backend/src/controllers/eventLog.controller.ts:38 | Without a zone, the records are returned as stored, with no local timestamp. |
| `EventLogController.GetEventLogs` | backend/src/controllers/eventLog.controller.ts:16-52 | 200 lists the query's records in order. Each has a local timestamp exactly when the zone query value is truthy, and that timestamp is the library's rendering of its instant in `String(userTimezone)`, whatever the value's shape. 500 exactly when the value is truthy and the library throws on some matching record. |
| `EventLogController.EventLogsFilteredAndSorted` | backend/src/controllers/eventLog.controller.ts:24-27 | A successful answer holds only records of that event, holds every one of them, and is newest first. |
| `EventLogController.NoLogsStillOk` | backend/src/controllers/eventLog.controller.ts:40-46 | An event without records answers 200 with an empty list, with or without a zone. |
| `EventLogController.GetEventLogById` | backend/src/controllers/eventLog.controller.ts:58-91 | 404 exactly when no record has both that id and that event. 500 exactly when the zone query value is truthy and the library throws on the first such record in `String(userTimezone)`. Otherwise the answer is that first record, with its local rendering exactly when the value is truthy. |
| `EventLogController.ListedLogFoundById` | backend/src/controllers/eventLog.controller.ts:24-37 | When log ids are unique, every record a successful listing returns is exactly what the single-record query answers for its id, local timestamp included. |
| `EventLogController.EmptyArrayRendersEmpty` | backend/src/controllers/eventLog.controller.ts:30-35 | The array query value `[""]` is truthy, yet `String` renders it as "". |
| `EventLogController.EmptyArrayZoneFails` | backend/src/controllers/eventLog.controller.ts:30-37 | For `?userTimezone[]=` a zone is still asked for, so a library that throws for the zone "" makes any event with a record answer 500, while no zone answers 200. |
| `ProfileController.ZoneOrUtc` | backend/src/controllers/profile.controller.ts:29 | The zone is never empty, is "UTC" for a falsy value, and keeps a non-empty string as given. |
| `ProfileController.CreateProfile` | backend/src/controllers/profile.controller.ts:16-39 | 400 exactly when the name is not a string or is whitespace only. 201 exactly when the id is fresh as well, and then the trimmed name and the zone (default "UTC") are stored, with no zone-list check. |
| `ProfileController.GetProfileById` | backend/src/controllers/profile.controller.ts:61-80 | 400 for an empty id and 404 for an absent one; otherwise 200 with the stored profile. |
| `ProfileController.CreateThenGetProfile` | backend/src/controllers/profile.controller.ts:16-39 | Reading a profile after its successful creation returns the created profile. |
| `ProfileController.Entry` | backend/src/controllers/profile.controller.ts:97-99 | A payload entry exists exactly for a string that is not blank, and holds it trimmed. |
| `ProfileController.Updated` | backend/src/controllers/profile.controller.ts:96-108 | The stored profile after the update: the name and zone become the trimmed input only when it is a non-blank string, and every other path is the prior one. |
| `ProfileController.UpdateProfile` | backend/src/controllers/profile.controller.ts:85-118 | 400 for an empty id, then 404 for an absent one. On 200 the name and zone change only when each is a non-blank string, and then to its trimmed value. Nothing else changes, not even `updated_at`. |
| `ProfileController.UpdateThenGetProfile` | backend/src/controllers/profile.controller.ts:61-80 | Reading a profile after a successful update returns exactly the updated profile. |
| `ProfileController.ZoneOf` | backend/src/controllers/profile.controller.ts:135 | The display zone is the profile's zone, or "UTC" when it is empty. |
| `ProfileController.Shape` | backend/src/controllers/profile.controller.ts:143-163 | A shaped event fails exactly when a date cannot be shifted into the zone. Otherwise its start and end are the shifted instants, and it carries the display zone, a description defaulting to "", the creator and the profiles. Both local timestamps are null. |
| `ProfileController.ShapeAll` | backend/src/controllers/profile.controller.ts:143-164 | Shaping fails exactly when some event cannot be shifted. Otherwise each event is shaped in order. |
| `ProfileController.GetProfileEvents` | backend/src/controllers/profile.controller.ts:123-179 | 400 for an empty id and 404 for an absent profile. 500 exactly when the library throws while shifting some event assigned to the profile. On 200 the list holds exactly the events assigned to the profile, each once, shaped for its zone, in ascending order of start. |
| `ProfileController.AssignedEventIsListed` | backend/src/controllers/event.controller.ts:235-241 | After a successful assignment, the events view of each assigned profile answers 200 or 500, and a 200 lists the event. |
| `SessionController.SetActiveProfiles` | backend/src/controllers/session.controller.ts:11-43 | 400 for a non-array or empty list, before any lookup, then 404 for an unknown caller. On 200 the list replaces the stored one wholesale, nothing else changes, and the answer echoes it. |
| `SessionController.SetActiveProfilesAsWritten` | backend/src/controllers/session.controller.ts:25-36 | The same checks and answers, but nothing is stored, because the profile schema has no `activeProfiles` path. |
| `SessionController.GetActiveProfiles` | backend/src/controllers/session.controller.ts:49-68 | 404 for an unknown caller; otherwise the stored list, or [] when none was set. |
| `SessionController.SetThenGet` | backend/src/controllers/session.controller.ts:25-36 | Reading back after a set returns exactly the list sent, whatever was stored before. |
| `SessionController.SetAsWrittenIsLost` | backend/src/controllers/session.controller.ts:25-27 | As written, a profile without a list still reads back [] after any non-empty list is set. |
| `TimezoneController.GetSupportedTimezones` | backend/src/controllers/timezone.controller.ts:17-31 | Returns exactly the library's zone list. |
| `TimezoneController.GetUserTimezone` | backend/src/controllers/timezone.controller.ts:34-52 | 404 for an unknown user. Otherwise the stored zone, or "UTC" when it is empty. |
| `TimezoneController.UpdateUserTimezone` | backend/src/controllers/timezone.controller.ts:55-82 | 400 for a missing or unlisted zone, before any lookup, then 404 for an unknown user. On 200 only the zone changes. |
| `TimezoneController.UpdateThenGet` | backend/src/controllers/timezone.controller.ts:64-70 | After a successful change, reading the zone returns the new one, and nothing else in the profile changed. |
| `TimezoneController.InstantOf` | backend/src/controllers/timezone.controller.ts:102 | A string timestamp is parsed and a number is taken as milliseconds. |
| `TimezoneController.ConvertToTimezone` | backend/src/controllers/timezone.controller.ts:85-114 | 400 exactly when an input is missing or the zone is unlisted. 500 exactly when the timestamp reads as an instant and the library throws on the zone. On 200 the original and the zone are echoed, and the conversion is the library's rendering, or "Invalid Date" for an unparseable timestamp. |
| `TimezoneController.RefusedIffUnsupported` | backend/src/controllers/timezone.controller.ts:17-31 | For given inputs, both the zone update and the conversion answer 400 exactly when the zone is not among the names the supported-zones endpoint lists. |
| `EventSchema.CreateSchemaDemands` | backend/src/schema/event.schema.ts:4-23 | An accepted create body has a non-empty title, at least one profile and no empty id, and a non-empty zone and bounds. Its end parses strictly after its start. |
| `EventSchema.CreateSchemaRejectsEqualInstants` | backend/src/schema/event.schema.ts:16-23 | Equal start and end instants are refused. |
| `EventSchema.CreateSchemaRejectsEmpty` | backend/src/schema/event.schema.ts:7-14 | An empty title, profile list, id, zone, start or end is refused. |
| `EventSchema.UpdateSchemaAcceptsEmpty` | backend/src/schema/event.schema.ts:25-33 | The empty update is accepted. |
| `EventSchema.UpdateSchemaChecksOrderOnlyWithBoth` | backend/src/schema/event.schema.ts:34-40 | The order is checked only when both bounds are given, and then it must be strict. |
| `EventSchema.UpdateSchemaRejectsEmptyTitle` | backend/src/schema/event.schema.ts:27 | A title that is given but empty is refused. |
| `ProfileSchema.CreateProfileSchemaFields` | backend/src/schema/profile.schema.ts:5-8 | An empty name is refused, and a missing zone is accepted. |
| `ProfileSchema.UpdateProfileSchemaFields` | backend/src/schema/profile.schema.ts:11-14 | The empty update is accepted, and a given empty name is refused. |
| `ProfileSchema.BlankNamePassesSchemaOnly` | backend/src/schema/profile.schema.ts:6 | A whitespace-only name passes the schema, which does not trim, while the create handler answers 400. |
| `TimezoneSchema.SchemasRejectMissing` | backend/src/schema/timezone.schema.ts:5-13 | A missing or empty zone or timestamp fails both schemas. |
| `TimezoneSchema.UnlistedZonePassesSchemasOnly` | backend/src/schema/timezone.schema.ts:5-13 | Any non-empty zone passes both schemas, with no list check, while both handlers answer 400 for an unlisted one. |
| `DateUtils.IsValidEventRange` | event-management-frontend/src/utils/dateUtils.ts:33-35 | A range is valid exactly when both dates parse and the end is not earlier than the start. |
| `DateUtils.EqualInstantsValidHereOnly` | event-management-frontend/src/utils/dateUtils.ts:34 | Equal instants are valid here but refused by the create schema. |
| `DateUtils.SchemaRangeIsValid` | event-management-frontend/src/utils/dateUtils.ts:33-35 | Every range the create schema accepts is valid here. |
| `DateUtils.ValidIffNotBefore` | event-management-frontend/src/utils/dateUtils.ts:33-35 | When both dates parse, valid means "end not before start", and an end before the start is invalid. |
| `DateUtils.InvalidDateIsNeither` | event-management-frontend/src/utils/dateUtils.ts:33-35 | An unparseable bound is neither a valid range nor "end before start". |
| `Redux.ClearedError` | event-management-frontend/src/features/event/eventSlice.ts:40-42 | Clearing the error keeps loading as it was; both slices' clear-error reducers use this step. |
| `Redux.Settled` | event-management-frontend/src/features/event/eventSlice.ts:47-69 | Every fulfilled case ends loading and keeps the error. |
| `Redux.Started` | event-management-frontend/src/features/event/eventSlice.ts:72-75 | The pending matcher of both slices starts loading and clears the error, whatever the state was. |
| `Redux.Failed` | event-management-frontend/src/features/event/eventSlice.ts:76-82 | The rejected matcher of both slices ends loading. The error becomes the payload if it is a string, else the message, else "Something went wrong". |
| `Redux.ReplaceById` | event-management-frontend/src/features/event/eventSlice.ts:57-58 | Only the first record with the same `_id` is replaced, the length is kept, and with no match the list is unchanged. |
| `Redux.ReplaceKeepsIds` | event-management-frontend/src/features/event/eventSlice.ts:57-58 | Replacing keeps the `_id` at every position. |
| `Redux.WithoutDoc` | event-management-frontend/src/features/event/eventSlice.ts:62 | After filtering, exactly the records with another `_id` remain. |
| `Redux.WithoutDocLaws` | event-management-frontend/src/features/event/eventSlice.ts:62 | Filtering by `_id` keeps order, is a no-op when no record has that id, and is idempotent. |
| `EventSlice.OnSetSelected` | event-management-frontend/src/features/event/eventSlice.ts:37-39 | Only `selectedEvent` changes. |
| `EventSlice.OnFetched` | event-management-frontend/src/features/event/eventSlice.ts:47-50 | The list is replaced and loading ends; nothing else changes. |
| `EventSlice.OnCreated` | event-management-frontend/src/features/event/eventSlice.ts:51-54 | The list grows by one, with the new record in front and the old list as its tail. |
| `EventSlice.OnUpdated` | event-management-frontend/src/features/event/eventSlice.ts:55-59 | Only the first record with that `_id` is replaced and the length is kept. With no match the list is unchanged. |
| `EventSlice.OnDeleted` | event-management-frontend/src/features/event/eventSlice.ts:60-63 | Exactly the records with another `_id` remain. |
| `EventSlice.OnLogsFetched` | event-management-frontend/src/features/event/eventSlice.ts:65-69 | Only the log entry for that event id is written. |
| `EventSlice.Reduce` | event-management-frontend/src/features/event/eventSlice.ts:33-84 | An unhandled action changes nothing. Clear-error, pending and rejected touch only the loading and error pair: clearing empties the error, pending starts loading with no error, and a rejection ends loading with its error. Only the selection action touches the selection, and only the log fetch touches the logs. |
| `EventSlice.CreateThenDelete` | event-management-frontend/src/features/event/eventSlice.ts:51-63 | Creating a record with a new id and deleting that id gives back the old list. |
| `EventSlice.DeleteIdempotent` | event-management-frontend/src/features/event/eventSlice.ts:60-63 | Deleting twice is deleting once. |
| `EventSlice.UpdateKeepsIds` | event-management-frontend/src/features/event/eventSlice.ts:55-59 | An update keeps the length and the `_id` at every position. |
| `EventSlice.RejectedThenPending` | event-management-frontend/src/features/event/eventSlice.ts:72-82 | A rejection sets an error, and the next pending action clears it and starts loading. |
| `ProfileSlice.OnSetCurrent` | event-management-frontend/src/features/profiles/profileSlice.ts:42-44 | Only `currentProfile` changes. |
| `ProfileSlice.OnFetched` | event-management-frontend/src/features/profiles/profileSlice.ts:52-55 | The list is replaced and loading ends; nothing else changes. |
| `ProfileSlice.OnCreated` | event-management-frontend/src/features/profiles/profileSlice.ts:56-59 | The new profile is put in front of the old list. |
| `ProfileSlice.OnUpdated` | event-management-frontend/src/features/profiles/profileSlice.ts:60-66 | Only the first profile with that `_id` is replaced and the length is kept. `currentProfile` is not touched. |
| `ProfileSlice.OnEventsFetched` | event-management-frontend/src/features/profiles/profileSlice.ts:68-72 | Only the events entry for that profile id is written. |
| `ProfileSlice.Reduce` | event-management-frontend/src/features/profiles/profileSlice.ts:38-89 | An unhandled action changes nothing. Clear-error, pending and rejected touch only the loading and error pair, with the same steps as the events slice. Only the selection action touches `currentProfile`, and only the events fetch touches `profileEvents`. |
| `ProfileSlice.CreateThenUpdate` | event-management-frontend/src/features/profiles/profileSlice.ts:56-66 | Updating a just-created profile replaces it in front and keeps the rest of the list. |
| `ProfileSlice.EventsFetchedCommute` | event-management-frontend/src/features/profiles/profileSlice.ts:68-72 | Fetching the events of two different profiles gives the same state in either order. |

## Findings

| source | as written | input that shows it | evidently intended | confidence | as-written member | corrected member |
|---|---|---|---|---|---|---|
| backend/src/controllers/session.controller.ts:25-27 | The update writes `activeProfiles`, which backend/src/models/user.model.ts:10-31 does not declare. Mongoose's default strict mode strips the path, so nothing is stored, the echo is undefined, and a later read gives []. | A stored profile with no list; set `["p1"]` for it, then read it back. The read gives [] instead of `["p1"]`. | The list is stored and read back as sent. | medium, not executed | `SessionController.SetActiveProfilesAsWritten` (with `SessionController.SetAsWrittenIsLost`) | `SessionController.SetActiveProfiles` (with `SessionController.SetThenGet`) |

## Left out

- getAllProfiles: its sort key is `createdAt`, but profiles have `created_at`, so the order is the database's own. It is a plain listing with nothing to state beyond that.
- Population: `populate` (profiles, creator, log author) replaces ids with documents in the answers. The model answers with ids, because the populated documents are Mongoose internals.
- Id casting: the model treats every string as a castable id. In the code a malformed id raises a cast error, so the model answers differently in these cases:
  - a malformed route id: the code answers 500, the model 404;
  - a malformed `updatedBy` on PUT: the log write fails after the save, so the code answers 500 with the update kept, while the model answers 200;
  - a malformed string in an assign list: `profileModel.find` fails, so the code answers 500, while the model answers 400;
  - a malformed `createdBy` or `profiles` entry in a create body: `eventModel.create` fails its cast, so the code answers 500, while the model answers 201;
  - a malformed id in a PUT body: the save after `Object.assign` fails its cast, so the code answers 500, while the model answers 200;
  - a malformed id in a PATCH body: `findByIdAndUpdate` fails to cast the update, so the code answers 500, while the model answers 200.
- Event body values: every field of a create, PUT or PATCH body is modelled as a string (or string list) or absent. JSON null and non-string values are not modelled. For example, a PUT with a null title fails the required validator on save (500), a null description is stored as null, and a numeric title on create is cast to its string form.
- The zone list: the code reads it from `dayjs.tz.names()`, a function the dayjs timezone plugin does not document. The model assumes it exists and returns the supported names (`TzLib.zones`). If it does not exist, `getAllTimezones` throws: the supported-zones endpoint falls to the application's error handler, and zone updates and conversions answer 500 for every given zone.
- Timezone arithmetic: parsing, formatting, shifting and the zone list come from dayjs and the Intl database. They enter as `TzLib` functions; offsets, DST and the difference between `dayjs(x)` (local) and `dayjs.utc(x)` are not modelled.
- Error bodies: the `{error: message}` body of 500 answers and the zod issue list of a 400 are not modelled. Responses carry no data on failure, and schemas only accept or refuse.
- Route wiring: `validateRequest` and the route files are left out. No route attaches the schemas, so they are modelled as standalone predicates. The schemas also name the bounds `startDateTime` / `endDateTime` while the handlers read `startUtc` / `endUtc`.
- Request bodies that are not JSON objects are not modelled, and numbers are integers only (no fractions, NaN or infinities).
- Unknown body keys in PUT/PATCH are not modelled: strict mode drops them. `EventFields` holds every schema path except `_id`, including `created_at` and `updated_at`.
- Sort ties: the database's order among equal sort keys is not modelled. Logs with equal timestamps keep their stored order, and events with equal starts come in an unspecified order.
- Concurrency: interleaved requests and last-writer-wins on the assigned list are not modelled. The model serves one request at a time.
- Frontend thunks, API clients and components: they only move data and render it. The reducers receive the records those thunks would deliver.
- TimezoneController.InstantOf: booleans, arrays and objects pass through JavaScript's `Date` coercion. Only the string and number cases are stated, because the others are coercion details outside the handler's logic.

=== FILE: date_utils.dfy ===
/**
 * `isValidEventRange` of the frontend's dateUtils.ts: end after or equal to
 * start. It is non-strict, where the backend's create schema is strict.
 */
module DateUtils {
  import opened Wrappers
  import opened Js
  import opened Time
  import EventSchema

  /** `isAfter || isSame`: both dates parse and the end is not earlier. */
  function IsValidEventRange(parse: string -> Option<Instant>, start: string, end: string): (ok: bool)
    ensures ok <==> parse(start).Some? && parse(end).Some? && parse(end).value >= parse(start).value
  {
    IsAfter(parse, end, start) || IsSame(parse, end, start)
  }

  /** Equal instants form a valid range here but are rejected by the create schema. */
  lemma EqualInstantsValidHereOnly(parse: string -> Option<Instant>, b: EventSchema.EventBody)
    requires b.startDateTime.Str? && b.endDateTime.Str?
    requires parse(b.startDateTime.s).Some? && parse(b.startDateTime.s) == parse(b.endDateTime.s)
    ensures IsValidEventRange(parse, b.startDateTime.s, b.endDateTime.s)
    ensures !EventSchema.CreateEventSchema(b, parse)
  {
  }

  /** Every range the create schema accepts is valid here. */
  lemma SchemaRangeIsValid(parse: string -> Option<Instant>, b: EventSchema.EventBody)
    requires EventSchema.CreateEventSchema(b, parse)
    ensures IsValidEventRange(parse, b.startDateTime.s, b.endDateTime.s)
  {
  }

  /** When both dates parse, a valid range is exactly one whose end is not before its start. */
  lemma ValidIffNotBefore(parse: string -> Option<Instant>, start: string, end: string)
    requires parse(start).Some? && parse(end).Some?
    ensures IsValidEventRange(parse, start, end) <==> !IsBefore(parse, end, start)
    ensures IsBefore(parse, end, start) ==> !IsValidEventRange(parse, start, end)
  {
  }

  /** An unparseable bound is neither a valid range nor "end before start". */
  lemma InvalidDateIsNeither(parse: string -> Option<Instant>, start: string, end: string)
    requires parse(start).None? || parse(end).None?
    ensures !IsValidEventRange(parse, start, end)
    ensures !IsBefore(parse, end, start)
  {
  }
}

=== FILE: event_controller.dfy ===
/**
 * The event handlers of event.controller.ts: create, read, PUT update with
 * its audit record, PATCH, delete, and profile assignment/unassignment.
 */
module EventController {
  import opened Wrappers
  import opened Js
  import opened Time
  import opened Seqs
  import opened Models
  import opened Store

  /** The fields `createEvent` destructures from the body; `timezone` is the body's key for the zone. */
  datatype CreateBody = CreateBody(
    title: Option<string>,
    description: Option<string>,
    startUtc: Option<string>,
    endUtc: Option<string>,
    createdBy: Option<Id>,
    timezone: Option<string>,
    profiles: Option<seq<Id>>)

  /**
   * The object `createEvent` hands to `eventModel.create`. The zone travels
   * under the key `timezone`, which is not a path of the event schema (whose
   * path is `eventTimezone`), so it never reaches the document.
   */
  datatype CreatePayload = CreatePayload(fields: EventFields<string>, timezone: string)

  function PayloadOf(b: CreateBody): (p: CreatePayload)
    ensures p.fields.eventTimezone.None? && p.fields.createdAt.None? && p.fields.updatedAt.None?
    ensures p.timezone == (if Present(b.timezone) then b.timezone.value else "UTC")
    ensures p.fields.profiles == Some(b.profiles.GetOr([]))
  {
    CreatePayload(
      EventFields(b.title, b.description, Some(b.profiles.GetOr([])), None, b.startUtc, b.endUtc, b.createdBy,
                  None, None),
      if Present(b.timezone) then b.timezone.value else "UTC")
  }

  /** The three checks of `createEvent`'s guard. */
  predicate HasRequired(b: CreateBody) {
    Present(b.title) && Present(b.startUtc) && Present(b.endUtc)
  }

  /**
   * POST /events. A falsy title, start or end answers 400 before anything is
   * written. Otherwise the document is created with `newId`; a cast or
   * validation error, or an id already in use, answers 500. No check that the
   * end follows the start is made.
   */
  function CreateEvent(db: Db, b: CreateBody, newId: Id, now: Instant, parse: string -> Option<Instant>): (r: Outcome<Event>)
    ensures r.response.status in {201, 400, 500}
    ensures r.response.status == 400 <==> !HasRequired(b)
    ensures r.response.status == 201 <==>
      && HasRequired(b)
      && parse(b.startUtc.value).Some? && parse(b.endUtc.value).Some?
      && Trim(b.title.value) != ""
      && newId !in db.events
    ensures r.response.status != 201 ==> r.db == db
    ensures WellKeyed(db) ==> WellKeyed(r.db)
    ensures r.response.status == 201 ==>
      && r.response.data.Some?
      && r.db == db.(events := db.events[newId := r.response.data.value])
      && var e := r.response.data.value;
      && e.id == newId
      && e.title == Trim(b.title.value)
      && e.description == TrimOpt(b.description)
      && e.startUtc == parse(b.startUtc.value).value && e.endUtc == parse(b.endUtc.value).value
      && e.eventTimezone == "UTC"
      && e.profiles == b.profiles.GetOr([])
      && e.createdBy == b.createdBy
      && e.createdAt == now && e.updatedAt == now
  {
    if !HasRequired(b) then Outcome(db, Fail(400, "Missing required fields"))
    else
      var payload := PayloadOf(b);
      match CastDates(payload.fields, parse)
      case None => Outcome(db, Fail(500, "Error creating event"))
      case Some(f) =>
        match CreateEventDoc(newId, f, now)
        case None => Outcome(db, Fail(500, "Error creating event"))
        case Some(e) =>
          if newId in db.events then Outcome(db, Fail(500, "Error creating event"))
          else Outcome(db.(events := db.events[newId := e]), Ok(201, "Event created successfully", e))
  }

  /** The zone given under `timezone` has no effect on the outcome of a create. */
  lemma CreateIgnoresTimezone(db: Db, b: CreateBody, zone: Option<string>, newId: Id, now: Instant,
                              parse: string -> Option<Instant>)
    ensures CreateEvent(db, b.(timezone := zone), newId, now, parse) == CreateEvent(db, b, newId, now, parse)
  {
  }

  /** GET /events/:eventId. */
  function GetEventById(db: Db, eventId: Id): (r: Response<Event>)
    ensures r.status == 404 <==> eventId !in db.events
    ensures r.status == 200 <==> eventId in db.events
    ensures r.status == 200 ==> r.data == Some(db.events[eventId])
  {
    if eventId !in db.events then Fail(404, "Event not found")
    else Ok(200, "Event fetched successfully", db.events[eventId])
  }

  /** The conditions under which `CreateEvent` answers 201. */
  predicate CreateAccepted(db: Db, b: CreateBody, newId: Id, parse: string -> Option<Instant>) {
    && HasRequired(b)
    && parse(b.startUtc.value).Some? && parse(b.endUtc.value).Some?
    && Trim(b.title.value) != ""
    && newId !in db.events
  }

  /** A created event is what a read of its id returns. */
  lemma CreateThenGet(db: Db, b: CreateBody, newId: Id, now: Instant, parse: string -> Option<Instant>)
    requires CreateAccepted(db, b, newId, parse)
    ensures var c := CreateEvent(db, b, newId, now, parse);
      && c.response.status == 201
      && GetEventById(c.db, newId) == Ok(200, "Event fetched successfully", c.response.data.value)
  {
  }

  /**
   * Deleting a just-created event gives back the store as it was before the
   * create, after which a read of its id is 404.
   */
  lemma DeleteUndoesCreate(db: Db, b: CreateBody, newId: Id, now: Instant, parse: string -> Option<Instant>)
    requires CreateAccepted(db, b, newId, parse)
    ensures var c := CreateEvent(db, b, newId, now, parse);
      && DeleteEvent(c.db, newId).response.status == 200
      && DeleteEvent(c.db, newId).db == db
      && GetEventById(DeleteEvent(c.db, newId).db, newId).status == 404
  {
    var c := CreateEvent(db, b, newId, now, parse);
    assert c.response.status == 201;
    DeleteAfterPut(db, newId, c.response.data.value);
  }

  /** Removing an id that was just added to a store without it gives back that store. */
  lemma DeleteAfterPut(db: Db, k: Id, e: Event)
    requires k !in db.events
    ensures DeleteEvent(db.(events := db.events[k := e]), k).db == db
  {
    assert (db.events[k := e] - {k}).Keys == db.events.Keys;
  }

  /** GET /events: every stored event exactly once, ascending by start. */
  method GetAllEvents(db: Db) returns (r: Response<seq<Event>>)
    ensures r.status == 200 && r.data.Some?
    ensures |r.data.value| == |db.events|
    ensures forall k :: k in db.events ==> db.events[k] in r.data.value
    ensures forall e :: e in r.data.value ==> e in db.events.Values
    ensures forall i, j :: 0 <= i < j < |r.data.value| ==> r.data.value[i].startUtc <= r.data.value[j].startUtc
  {
    var ks := SortedKeysWhere(db.events, (e: Event) => true);
    var evs := seq(|ks|, i requires 0 <= i < |ks| => db.events[ks[i]]);
    forall k | k in db.events
      ensures db.events[k] in evs
    {
      var i :| 0 <= i < |ks| && ks[i] == k;
      assert evs[i] == db.events[k];
    }
    ElemsCard(ks);
    assert Elems(ks) == db.events.Keys;
    r := Ok(200, "Events fetched successfully", evs);
  }

  /** The audit actor written by `updateEvent`: `updatedBy || null`. */
  function Actor(updatedBy: Option<string>): (a: Option<Id>)
    ensures a.Some? <==> Present(updatedBy)
    ensures a.Some? ==> a == updatedBy
  {
    if Present(updatedBy) then updatedBy else None
  }

  /** The stored event a PUT with these fields would save, if the casts and validation pass. */
  function Merged(e: Event, body: EventFields<string>, now: Instant, parse: string -> Option<Instant>): (r: Option<Event>)
    ensures r.Some? <==> DatesCast(body, parse) && ValidEvent(ApplyFields(e, CastDates(body, parse).value))
    ensures r.Some? ==> r.value.id == e.id && r.value.updatedAt == now
    ensures r.Some? ==> r.value == ApplyFields(e, CastDates(body, parse).value).(updatedAt := now)
  {
    match CastDates(body, parse)
    case None => None
    case Some(f) => SaveEvent(ApplyFields(e, f), now)
  }

  /**
   * PUT /events/:eventId. Loads the event (404 if absent), snapshots it, merges
   * the body into it and saves it, and only then writes one audit record with
   * the two snapshots. A missing `updatedBy` makes that record invalid: the
   * update stays saved, no record is written, and the answer is 500.
   */
  function UpdateEvent(db: Db, eventId: Id, body: EventFields<string>, updatedBy: Option<string>,
                       logId: Id, now: Instant, parse: string -> Option<Instant>): (r: Outcome<Event>)
    ensures r.response.status in {200, 404, 500}
    ensures r.response.status == 404 <==> eventId !in db.events
    ensures r.db.profiles == db.profiles && r.db.events.Keys == db.events.Keys
    ensures WellKeyed(db) ==> WellKeyed(r.db)
    ensures UniqueLogIds(db.logs) ==> UniqueLogIds(r.db.logs)
    ensures db.logs <= r.db.logs
    ensures eventId in db.events && Merged(db.events[eventId], body, now, parse).Some? ==>
      r.db.events == db.events[eventId := Merged(db.events[eventId], body, now, parse).value]
    ensures eventId !in db.events || Merged(db.events[eventId], body, now, parse).None? ==> r.db == db
    ensures r.response.status == 200 <==>
      && eventId in db.events
      && Merged(db.events[eventId], body, now, parse).Some?
      && Present(updatedBy)
      && !LogIdTaken(db.logs, logId)
    ensures |r.db.logs| == |db.logs| + (if r.response.status == 200 then 1 else 0)
    ensures r.response.status == 200 ==>
      && r.response.data == Some(r.db.events[eventId])
      && var log := r.db.logs[|db.logs|];
      && log.id == logId
      && log.eventId == db.events[eventId].id
      && log.updatedBy == updatedBy.value
      && log.before == db.events[eventId]
      && log.after == r.db.events[eventId]
      && log.timestampUtc == now
  {
    if eventId !in db.events then Outcome(db, Fail(404, "Event not found"))
    else
      var before := db.events[eventId];
      match Merged(before, body, now, parse)
      case None => Outcome(db, Fail(500, "Error updating event"))
      case Some(after) =>
        var saved := db.(events := db.events[eventId := after]);
        match CreateLogDoc(logId, LogFields(Some(after.id), Actor(updatedBy), Some(before), Some(after), Some(now)), now)
        case None => Outcome(saved, Fail(500, "Error updating event"))
        case Some(log) =>
          if LogIdTaken(db.logs, logId) then Outcome(saved, Fail(500, "Error updating event"))
          else Outcome(saved.(logs := db.logs + [log]), Ok(200, "Event updated successfully", after))
  }

  /**
   * A PUT whose merge saves but that carries no `updatedBy` leaves the event
   * updated, the log untouched, and answers 500.
   */
  lemma UpdateWithoutActorSavesButFails(db: Db, eventId: Id, body: EventFields<string>, logId: Id,
                                        now: Instant, parse: string -> Option<Instant>)
    requires eventId in db.events
    requires Merged(db.events[eventId], body, now, parse).Some?
    ensures var r := UpdateEvent(db, eventId, body, None, logId, now, parse);
      && r.response.status == 500
      && r.db.events[eventId] == Merged(db.events[eventId], body, now, parse).value
      && r.db.events[eventId].updatedAt == now
      && r.db.logs == db.logs
  {
  }

  /**
   * The merge keeps every path the body leaves out and writes every path it
   * gives, `created_at` included; `updated_at` is always the save time, since
   * the pre-save hook runs after the merge.
   */
  lemma UpdateKeepsAbsentFields(db: Db, eventId: Id, body: EventFields<string>, updatedBy: Option<string>,
                                logId: Id, now: Instant, parse: string -> Option<Instant>)
    requires UpdateEvent(db, eventId, body, updatedBy, logId, now, parse).response.status == 200
    ensures var r := UpdateEvent(db, eventId, body, updatedBy, logId, now, parse);
      var prior := db.events[eventId];
      var e := r.db.events[eventId];
      && (body.title.None? ==> e.title == prior.title)
      && (body.description.None? ==> e.description == prior.description)
      && (body.profiles.None? ==> e.profiles == prior.profiles)
      && (body.eventTimezone.None? ==> e.eventTimezone == prior.eventTimezone)
      && (body.startUtc.None? ==> e.startUtc == prior.startUtc)
      && (body.endUtc.None? ==> e.endUtc == prior.endUtc)
      && (body.createdBy.None? ==> e.createdBy == prior.createdBy)
      && (body.createdAt.None? ==> e.createdAt == prior.createdAt)
      && (body.createdAt.Some? ==> e.createdAt == parse(body.createdAt.value).value)
      && e.updatedAt == now
      && (body.title.Some? ==> e.title == Trim(body.title.value))
  {
    var f := CastDates(body, parse).value;
    assert SaveEvent(ApplyFields(db.events[eventId], f), now).Some?;
  }

  /**
   * PATCH /events/:eventId. The body is cast first (500 on a cast error), then
   * applied in place (404 if absent). No validator, no pre-save hook, no audit
   * record: `updated_at` keeps its prior value unless the body itself sets it.
   */
  function PatchEvent(db: Db, eventId: Id, body: EventFields<string>, parse: string -> Option<Instant>): (r: Outcome<Event>)
    ensures r.response.status in {200, 404, 500}
    ensures r.db.logs == db.logs && r.db.profiles == db.profiles
    ensures r.response.status == 500 <==> CastDates(body, parse).None?
    ensures r.response.status == 404 <==> CastDates(body, parse).Some? && eventId !in db.events
    ensures r.response.status != 200 ==> r.db == db
    ensures WellKeyed(db) ==> WellKeyed(r.db)
    ensures r.response.status == 200 ==>
      && r.response.data.Some?
      && r.db.events == db.events[eventId := r.response.data.value]
      && r.response.data.value == ApplyFields(db.events[eventId], CastDates(body, parse).value)
      && (body.updatedAt.None? ==> r.response.data.value.updatedAt == db.events[eventId].updatedAt)
      && (body.updatedAt.Some? ==> r.response.data.value.updatedAt == parse(body.updatedAt.value).value)
  {
    match CastDates(body, parse)
    case None => Outcome(db, Fail(500, "Error patching event"))
    case Some(f) =>
      if eventId !in db.events then Outcome(db, Fail(404, "Event not found"))
      else
        var e := ApplyFields(db.events[eventId], f);
        Outcome(db.(events := db.events[eventId := e]), Ok(200, "Event partially updated", e))
  }

  /** Because PATCH runs no validator, a blank title is stored as the empty string. */
  lemma PatchSkipsValidation(db: Db, eventId: Id, parse: string -> Option<Instant>)
    requires eventId in db.events
    ensures var body := EventFields(Some("  "), None, None, None, None, None, None, None, None);
      var r := PatchEvent(db, eventId, body, parse);
      r.response.status == 200 && r.db.events[eventId].title == "" && !ValidEvent(r.db.events[eventId])
  {
    assert Trim("  ") == "" by { TrimEmptyIff("  "); }
  }

  /** DELETE /events/:eventId. Removes that event only; its audit records stay. */
  function DeleteEvent(db: Db, eventId: Id): (r: Outcome<Event>)
    ensures r.response.status in {200, 404}
    ensures r.response.status == 404 <==> eventId !in db.events
    ensures r.db.logs == db.logs && r.db.profiles == db.profiles
    ensures r.response.status == 404 ==> r.db == db
    ensures WellKeyed(db) ==> WellKeyed(r.db)
    ensures r.response.status == 200 ==>
      && r.response.data == Some(db.events[eventId])
      && eventId !in r.db.events
      && r.db.events.Keys == db.events.Keys - {eventId}
      && forall k :: k in r.db.events ==> r.db.events[k] == db.events[k]
  {
    if eventId !in db.events then Outcome(db, Fail(404, "Event not found"))
    else Outcome(db.(events := db.events - {eventId}), Ok(200, "Event deleted successfully", db.events[eventId]))
  }

  /** The entries of an id array when every one is a string; `None` otherwise. */
  function StringItems(items: seq<Json>): (r: Option<seq<string>>)
    ensures r.Some? <==> forall i :: 0 <= i < |items| ==> items[i].Str?
    ensures r.Some? ==> |r.value| == |items| && forall i :: 0 <= i < |items| ==> r.value[i] == items[i].s
  {
    if items == [] then Some([])
    else if !items[0].Str? then None
    else
      match StringItems(items[1..])
      case None => None
      case Some(rest) => Some([items[0].s] + rest)
  }

  /**
   * The existence check of `assignProfilesToEvent`: the number of distinct
   * stored profiles among `ids` must equal the number of entries in `ids`.
   */
  predicate AllFound(ids: seq<Id>, keys: set<Id>) {
    |Elems(ids) * keys| == |ids|
  }

  /** The count check passes exactly when no id repeats and every id is a stored profile. */
  lemma AllFoundIff(ids: seq<Id>, keys: set<Id>)
    ensures AllFound(ids, keys) <==> NoDup(ids) && forall x :: x in ids ==> x in keys
  {
    var e := Elems(ids);
    var f := e * keys;
    ElemsCard(ids);
    SubsetCardLe(f, e);
    if AllFound(ids, keys) {
      SubsetCard(f, e);
    }
    if NoDup(ids) && forall x :: x in ids ==> x in keys {
      assert f == e;
    }
  }

  /** The assigned list after a merge: prior ids first, then the new ones, each once. */
  function MergeIds(prior: seq<Id>, ids: seq<Id>): (r: seq<Id>)
    ensures NoDup(r)
    ensures forall x :: x in r <==> x in prior || x in ids
    ensures Dedup(prior) <= r
    ensures forall i :: |Dedup(prior)| <= i < |r| ==> r[i] in ids && r[i] !in prior
  {
    DedupPrefix(prior, ids);
    Dedup(prior + ids)
  }

  /**
   * An entry the `$in` query can cast: a string, or null, which the query
   * keeps as null and which then matches no profile. Any other value is a
   * cast error.
   */
  predicate Castable(v: Json) {
    v.Str? || v.Null?
  }

  /** The string entries of an id array, in order; null and other entries are skipped. */
  function StringsOf(items: seq<Json>): (r: seq<string>)
    ensures |r| <= |items|
    ensures (exists i :: 0 <= i < |items| && items[i].Null?) ==> |r| < |items|
    ensures forall x :: x in r ==> Str(x) in items
  {
    if items == [] then []
    else
      var rest := StringsOf(items[1..]);
      assert forall x :: Str(x) in items[1..] ==> Str(x) in items;
      assert forall i :: 1 <= i < |items| ==> items[i] == items[1..][i - 1];
      if items[0].Str? then [items[0].s] + rest else rest
  }

  /**
   * Why a null entry fails the existence check: the query can only find
   * profiles named by string entries, so the number of distinct stored
   * profiles found is below the length of a list holding a null.
   */
  lemma NullEntryFailsCount(items: seq<Json>, keys: set<Id>, k: nat)
    requires k < |items| && items[k].Null?
    ensures |Elems(StringsOf(items)) * keys| < |items|
  {
    var strs := StringsOf(items);
    ElemsCard(strs);
    SubsetCardLe(Elems(strs) * keys, Elems(strs));
  }

  /** What an assign request must satisfy, in the order it is checked, to pass every check. */
  predicate AssignAccepted(db: Db, eventId: Id, profileIds: Json) {
    && profileIds.Arr? && |profileIds.items| > 0
    && eventId in db.events
    && StringItems(profileIds.items).Some?
    && NoDup(StringItems(profileIds.items).value)
    && (forall x :: x in StringItems(profileIds.items).value ==> x in db.profiles)
  }

  /**
   * POST /events/:eventId/assign. Checks, in order: a non-empty array (400),
   * the event (404), entries that can be cast (500), then that every entry
   * names a distinct stored profile (400), so a repeated id or a null entry is
   * rejected. The merged list is then saved, which refreshes `updated_at`.
   */
  function AssignProfiles(db: Db, eventId: Id, profileIds: Json, now: Instant): (r: Outcome<Event>)
    ensures r.response.status in {200, 400, 404, 500}
    ensures r.db.logs == db.logs && r.db.profiles == db.profiles
    ensures r.response.status != 200 ==> r.db == db
    ensures WellKeyed(db) ==> WellKeyed(r.db)
    ensures !profileIds.Arr? || |profileIds.items| == 0 ==> r.response.status == 400
    ensures profileIds.Arr? && |profileIds.items| > 0 && eventId !in db.events ==> r.response.status == 404
    ensures (profileIds.Arr? && |profileIds.items| > 0 && eventId in db.events
             && exists i :: 0 <= i < |profileIds.items| && !Castable(profileIds.items[i]))
            ==> r.response.status == 500
    ensures (profileIds.Arr? && |profileIds.items| > 0 && eventId in db.events
             && (forall i :: 0 <= i < |profileIds.items| ==> Castable(profileIds.items[i]))
             && exists i :: 0 <= i < |profileIds.items| && profileIds.items[i].Null?)
            ==> r.response.status == 400
    ensures (profileIds.Arr? && |profileIds.items| > 0 && eventId in db.events
             && StringItems(profileIds.items).Some?
             && !(NoDup(StringItems(profileIds.items).value)
                  && forall x :: x in StringItems(profileIds.items).value ==> x in db.profiles))
            ==> r.response.status == 400
    ensures AssignAccepted(db, eventId, profileIds) && !ValidEvent(db.events[eventId]) ==> r.response.status == 500
    ensures r.response.status == 200 <==> AssignAccepted(db, eventId, profileIds) && ValidEvent(db.events[eventId])
    ensures r.response.status == 200 ==>
      && r.response.data.Some?
      && var prior := db.events[eventId];
      && var e := r.response.data.value;
      && r.db.events == db.events[eventId := e]
      && e.profiles == MergeIds(prior.profiles, StringItems(profileIds.items).value)
      && e.updatedAt == now
      && e.(profiles := prior.profiles, updatedAt := prior.updatedAt) == prior
  {
    if !profileIds.Arr? || |profileIds.items| == 0 then
      Outcome(db, Fail(400, "profileIds must be a non-empty array"))
    else if eventId !in db.events then Outcome(db, Fail(404, "Event not found"))
    else
      match StringItems(profileIds.items)
      case None =>
        if forall i :: 0 <= i < |profileIds.items| ==> Castable(profileIds.items[i]) then
          Outcome(db, Fail(400, "Some profiles not found"))
        else Outcome(db, Fail(500, "Error assigning profiles"))
      case Some(ids) =>
        AllFoundIff(ids, db.profiles.Keys);
        if !AllFound(ids, db.profiles.Keys) then Outcome(db, Fail(400, "Some profiles not found"))
        else
          var prior := db.events[eventId];
          match SaveEvent(prior.(profiles := MergeIds(prior.profiles, ids)), now)
          case None => Outcome(db, Fail(500, "Error assigning profiles"))
          case Some(e) =>
            Outcome(db.(events := db.events[eventId := e]), Ok(200, "Profiles assigned successfully", e))
  }

  /**
   * Any list of ids that repeats one, even of stored profiles, is refused as
   * "Some profiles not found" for an existing event, and nothing is written.
   */
  lemma AssignRejectsDuplicates(db: Db, eventId: Id, items: seq<Json>, now: Instant)
    requires eventId in db.events
    requires StringItems(items).Some? && !NoDup(StringItems(items).value)
    ensures var r := AssignProfiles(db, eventId, Arr(items), now);
      r.response.status == 400 && r.db == db
  {
    var ids := StringItems(items).value;
    assert |items| == |ids|;
  }

  /** Repeating a successful assign request changes nothing in the assigned list. */
  lemma AssignIdempotent(db: Db, eventId: Id, profileIds: Json, now: Instant, later: Instant)
    requires AssignAccepted(db, eventId, profileIds) && ValidEvent(db.events[eventId])
    ensures var r1 := AssignProfiles(db, eventId, profileIds, now);
      var r2 := AssignProfiles(r1.db, eventId, profileIds, later);
      && r2.response.status == 200
      && r2.db.events[eventId].profiles == r1.db.events[eventId].profiles
  {
    var r1 := AssignProfiles(db, eventId, profileIds, now);
    var ids := StringItems(profileIds.items).value;
    var merged := r1.db.events[eventId].profiles;
    assert ValidEvent(r1.db.events[eventId]);
    DedupAppendPresent(merged, ids);
    DedupOfNoDup(merged);
  }

  /** When the stored list has no repetitions, the merge keeps it as a prefix. */
  lemma AssignKeepsExistingOrder(db: Db, eventId: Id, profileIds: Json, now: Instant)
    requires AssignAccepted(db, eventId, profileIds) && ValidEvent(db.events[eventId])
    requires NoDup(db.events[eventId].profiles)
    ensures var prior := db.events[eventId].profiles;
      prior <= AssignProfiles(db, eventId, profileIds, now).db.events[eventId].profiles
  {
    DedupOfNoDup(db.events[eventId].profiles);
  }

  /** The assigned list without `profileId`, every occurrence removed. */
  function WithoutId(ids: seq<Id>, profileId: Id): (r: seq<Id>)
    ensures profileId !in r
    ensures forall x :: x in r <==> x in ids && x != profileId
  {
    Filter(ids, x => x != profileId)
  }

  /** Removing an id keeps the relative order of the others: it distributes over concatenation. */
  lemma WithoutIdKeepsOrder(a: seq<Id>, b: seq<Id>, profileId: Id)
    ensures WithoutId(a + b, profileId) == WithoutId(a, profileId) + WithoutId(b, profileId)
  {
    FilterConcat(a, b, x => x != profileId);
  }

  /** Removing an id that is not assigned changes nothing, and removing twice is removing once. */
  lemma WithoutIdNoOp(ids: seq<Id>, profileId: Id)
    ensures profileId !in ids ==> WithoutId(ids, profileId) == ids
    ensures WithoutId(WithoutId(ids, profileId), profileId) == WithoutId(ids, profileId)
  {
    var keep := (x: Id) => x != profileId;
    if profileId !in ids {
      FilterKeepsAll(ids, keep);
    }
    FilterIdempotent(ids, keep);
  }

  /**
   * DELETE /events/:eventId/unassign/:profileId. 404 if the event is absent;
   * otherwise the id is filtered out (never an error for a non-member) and
   * the event saved.
   */
  function UnassignProfile(db: Db, eventId: Id, profileId: Id, now: Instant): (r: Outcome<Event>)
    ensures r.response.status in {200, 404, 500}
    ensures r.db.logs == db.logs && r.db.profiles == db.profiles
    ensures WellKeyed(db) ==> WellKeyed(r.db)
    ensures r.response.status == 404 <==> eventId !in db.events
    ensures r.response.status == 200 <==> eventId in db.events && ValidEvent(db.events[eventId])
    ensures r.response.status != 200 ==> r.db == db
    ensures r.response.status == 200 ==>
      && r.response.data.Some?
      && var prior := db.events[eventId];
      && var e := r.response.data.value;
      && r.db.events == db.events[eventId := e]
      && e.profiles == WithoutId(prior.profiles, profileId)
      && e.updatedAt == now
      && e.(profiles := prior.profiles, updatedAt := prior.updatedAt) == prior
  {
    if eventId !in db.events then Outcome(db, Fail(404, "Event not found"))
    else
      var prior := db.events[eventId];
      match SaveEvent(prior.(profiles := WithoutId(prior.profiles, profileId)), now)
      case None => Outcome(db, Fail(500, "Error unassigning profile"))
      case Some(e) => Outcome(db.(events := db.events[eventId := e]), Ok(200, "Profile unassigned successfully", e))
  }
}

=== FILE: event_log_controller.dfy ===
/**
 * The audit-log queries of eventLog.controller.ts. Stored records are never
 * changed by a query: a requested zone only adds a `timestampLocal` beside them.
 */
module EventLogController {
  import opened Wrappers
  import opened Js
  import opened Time
  import opened Seqs
  import opened Models
  import opened Store

  /** A log as returned: the stored record, plus its local timestamp when a zone was asked for. */
  datatype LogView = LogView(log: EventLog, timestampLocal: Option<string>)

  /** `find({ eventId }).sort({ timestampUtc: -1 })`; records with equal timestamps keep their stored order. */
  function LogsOf(logs: seq<EventLog>, eventId: Id): (r: seq<EventLog>)
    ensures forall i :: 0 <= i < |r| ==> r[i] in logs && r[i].eventId == eventId
    ensures forall i :: 0 <= i < |logs| && logs[i].eventId == eventId ==> logs[i] in r
    ensures forall i, j :: 0 <= i < j < |r| ==> r[i].timestampUtc >= r[j].timestampUtc
    ensures multiset(r) == multiset(Filter(logs, (l: EventLog) => l.eventId == eventId))
  {
    var matching := Filter(logs, (l: EventLog) => l.eventId == eventId);
    var r := SortBy(matching, NewestFirst);
    SameElems(r, matching);
    r
  }

  /** The sort key that puts later timestamps first. */
  function NewestFirst(l: EventLog): int {
    -l.timestampUtc
  }

  /** Every log with `timestampLocal` in `zone`; `None` when the library throws for some log. */
  function Decorate(logs: seq<EventLog>, zone: string, format: (Instant, string) -> Option<string>): (r: Option<seq<LogView>>)
    ensures r.Some? <==> forall i :: 0 <= i < |logs| ==> format(logs[i].timestampUtc, zone).Some?
    ensures r.Some? ==> (|r.value| == |logs| &&
      forall i :: 0 <= i < |logs| ==> r.value[i] == LogView(logs[i], format(logs[i].timestampUtc, zone)))
  {
    if logs == [] then Some([])
    else
      match format(logs[0].timestampUtc, zone)
      case None => None
      case Some(local) =>
        match Decorate(logs[1..], zone, format)
        case None => None
        case Some(rest) => Some([LogView(logs[0], Some(local))] + rest)
  }

  /** The logs exactly as stored. */
  function Plain(logs: seq<EventLog>): (r: seq<LogView>)
    ensures |r| == |logs| && forall i :: 0 <= i < |logs| ==> r[i] == LogView(logs[i], None)
  {
    seq(|logs|, i requires 0 <= i < |logs| => LogView(logs[i], None))
  }

  /**
   * GET /events/:eventId/logs[?userTimezone=]. The records of that event,
   * newest first; with a truthy zone query each gains `timestampLocal` in
   * `String(userTimezone)`, without one they are returned as stored. No
   * match is still 200, with an empty list. The query value is whatever the
   * query-string parser produced: a string, an array or an object.
   */
  function GetEventLogs(db: Db, eventId: Id, userTimezone: Json, lib: TzLib): (r: Response<seq<LogView>>)
    ensures r.status in {200, 500}
    ensures r.status == 500 <==>
      && Truthy(userTimezone)
      && exists i :: 0 <= i < |LogsOf(db.logs, eventId)|
                   && lib.format(LogsOf(db.logs, eventId)[i].timestampUtc, ToJsString(userTimezone)).None?
    ensures r.status == 200 ==>
      && r.data.Some?
      && var views := r.data.value;
      && |views| == |LogsOf(db.logs, eventId)|
      && (forall i :: 0 <= i < |views| ==> views[i].log == LogsOf(db.logs, eventId)[i])
      && (forall i :: 0 <= i < |views| ==> (views[i].timestampLocal.Some? <==> Truthy(userTimezone)))
      && (Truthy(userTimezone) ==>
            forall i :: 0 <= i < |views| ==>
              views[i].timestampLocal == lib.format(views[i].log.timestampUtc, ToJsString(userTimezone)))
  {
    var found := LogsOf(db.logs, eventId);
    if Truthy(userTimezone) then
      match Decorate(found, ToJsString(userTimezone), lib.format)
      case None => Fail(500, "Error fetching event logs")
      case Some(views) => Ok(200, "Event logs fetched successfully", views)
    else Ok(200, "Event logs fetched successfully", Plain(found))
  }

  /**
   * What a successful answer lists: exactly the records of that event (every
   * one of them, nothing else), newest first, each as stored.
   */
  lemma EventLogsFilteredAndSorted(db: Db, eventId: Id, userTimezone: Json, lib: TzLib)
    requires GetEventLogs(db, eventId, userTimezone, lib).status == 200
    ensures var views := GetEventLogs(db, eventId, userTimezone, lib).data.value;
      && (forall i :: 0 <= i < |views| ==> views[i].log in db.logs && views[i].log.eventId == eventId)
      && (forall i :: 0 <= i < |db.logs| && db.logs[i].eventId == eventId ==>
            exists j :: 0 <= j < |views| && views[j].log == db.logs[i])
      && (forall i, j :: 0 <= i < j < |views| ==> views[i].log.timestampUtc >= views[j].log.timestampUtc)
  {
    var views := GetEventLogs(db, eventId, userTimezone, lib).data.value;
    var found := LogsOf(db.logs, eventId);
    forall i | 0 <= i < |db.logs| && db.logs[i].eventId == eventId
      ensures exists j :: 0 <= j < |views| && views[j].log == db.logs[i]
    {
      assert db.logs[i] in found;
      var j :| 0 <= j < |found| && found[j] == db.logs[i];
      assert views[j].log == found[j];
    }
  }

  /** An event without records answers 200 with an empty list, whatever the zone. */
  lemma NoLogsStillOk(db: Db, eventId: Id, userTimezone: Json, lib: TzLib)
    requires forall i :: 0 <= i < |db.logs| ==> db.logs[i].eventId != eventId
    ensures GetEventLogs(db, eventId, userTimezone, lib) == Ok(200, "Event logs fetched successfully", [])
  {
    assert Plain([]) == [];
  }

  /** The filter `{ _id: logId, eventId }`. */
  predicate IsLog(l: EventLog, eventId: Id, logId: Id) {
    l.id == logId && l.eventId == eventId
  }

  /** `logs[i]` is the first record the filter matches. */
  predicate FirstMatch(logs: seq<EventLog>, i: int, eventId: Id, logId: Id) {
    && 0 <= i < |logs|
    && IsLog(logs[i], eventId, logId)
    && forall j :: 0 <= j < i ==> !IsLog(logs[j], eventId, logId)
  }

  /**
   * GET /events/:eventId/logs/:logId. 404 unless some record has both that id
   * and that event; the first such record is returned, decorated when a zone
   * is given. 500 only when the library throws on that record's timestamp.
   */
  function GetEventLogById(db: Db, eventId: Id, logId: Id, userTimezone: Json, lib: TzLib): (r: Response<LogView>)
    ensures r.status in {200, 404, 500}
    ensures r.status == 404 <==> forall i :: 0 <= i < |db.logs| ==> !IsLog(db.logs[i], eventId, logId)
    ensures r.status == 500 <==>
      && Truthy(userTimezone)
      && exists i :: FirstMatch(db.logs, i, eventId, logId)
                   && lib.format(db.logs[i].timestampUtc, ToJsString(userTimezone)).None?
    ensures r.status == 200 ==>
      && r.data.Some?
      && (exists i :: FirstMatch(db.logs, i, eventId, logId) && r.data.value.log == db.logs[i])
      && (r.data.value.timestampLocal.Some? <==> Truthy(userTimezone))
      && (Truthy(userTimezone) ==> r.data.value.timestampLocal == lib.format(r.data.value.log.timestampUtc, ToJsString(userTimezone)))
  {
    var k := FindIndex(db.logs, (l: EventLog) => IsLog(l, eventId, logId));
    if k == -1 then Fail(404, "Log entry not found")
    else
      var log := db.logs[k];
      if Truthy(userTimezone) then
        match lib.format(log.timestampUtc, ToJsString(userTimezone))
        case None => Fail(500, "Error fetching log entry")
        case Some(local) => Ok(200, "Log entry fetched successfully", LogView(log, Some(local)))
      else Ok(200, "Log entry fetched successfully", LogView(log, None))
  }

  /**
   * Every record a successful listing returns is also what the single-record
   * query answers for its id, with the same local timestamp.
   */
  lemma ListedLogFoundById(db: Db, eventId: Id, userTimezone: Json, lib: TzLib, i: nat)
    requires UniqueLogIds(db.logs)
    requires GetEventLogs(db, eventId, userTimezone, lib).status == 200
    requires i < |GetEventLogs(db, eventId, userTimezone, lib).data.value|
    ensures var v := GetEventLogs(db, eventId, userTimezone, lib).data.value[i];
      GetEventLogById(db, eventId, v.log.id, userTimezone, lib) == Ok(200, "Log entry fetched successfully", v)
  {
    var v := GetEventLogs(db, eventId, userTimezone, lib).data.value[i];
    var found := LogsOf(db.logs, eventId);
    assert v.log == found[i];
    assert v.log in db.logs && v.log.eventId == eventId;
    var m :| 0 <= m < |db.logs| && db.logs[m] == v.log;
    var r := GetEventLogById(db, eventId, v.log.id, userTimezone, lib);
    var k :| FirstMatch(db.logs, k, eventId, v.log.id);
    assert IsLog(db.logs[m], eventId, v.log.id);
    assert k == m;
  }

  /** `String([""])` is "", although the array itself is truthy. */
  lemma EmptyArrayRendersEmpty()
    ensures Truthy(Arr([Str("")])) && ToJsString(Arr([Str("")])) == ""
  {
    var zone := Arr([Str("")]);
    assert Str("") in zone.items;
    assert JoinItems(zone, [Str("")]) == ToJsString(Str(""));
  }

  /**
   * `?userTimezone[]=` parses to `[""]`: truthy, so the zone is asked for,
   * but `String` renders it as "". With a library that throws for the zone
   * "", any event with a record answers 500, where an absent zone answers 200.
   */
  lemma EmptyArrayZoneFails(db: Db, eventId: Id, lib: TzLib, k: nat)
    requires k < |db.logs| && db.logs[k].eventId == eventId
    requires lib.format(db.logs[k].timestampUtc, "").None?
    ensures GetEventLogs(db, eventId, Arr([Str("")]), lib).status == 500
    ensures GetEventLogs(db, eventId, Undefined, lib).status == 200
  {
    EmptyArrayRendersEmpty();
    var found := LogsOf(db.logs, eventId);
    assert db.logs[k] in found;
    var j :| 0 <= j < |found| && found[j] == db.logs[k];
  }
}

=== FILE: event_schema.dfy ===
/**
 * createEventSchema / updateEventSchema of event.schema.ts as predicates on
 * a request body. Dates are compared through the same string cast the
 * handlers use; the refinement is strict (`isAfter`).
 */
module EventSchema {
  import opened Wrappers
  import opened Js
  import opened Time
  import opened Zod

  datatype EventBody = EventBody(
    title: Json,
    description: Json,
    profiles: Json,
    timezone: Json,
    startDateTime: Json,
    endDateTime: Json)

  /** `{}`. */
  const EmptyBody := EventBody(Undefined, Undefined, Undefined, Undefined, Undefined, Undefined)

  /** The field checks of createEventSchema, before its refinement. */
  predicate CreateFields(b: EventBody) {
    && NonEmptyString(b.title)
    && OptString(b.description)
    && IdArray(b.profiles) && |b.profiles.items| > 0
    && NonEmptyString(b.timezone)
    && NonEmptyString(b.startDateTime)
    && NonEmptyString(b.endDateTime)
  }

  /** createEventSchema: every field check, and end strictly after start. */
  predicate CreateEventSchema(b: EventBody, parse: string -> Option<Instant>) {
    CreateFields(b) && IsAfter(parse, b.endDateTime.s, b.startDateTime.s)
  }

  /** The field checks of updateEventSchema: every key optional, a given title non-empty. */
  predicate UpdateFields(b: EventBody) {
    && OptNonEmptyString(b.title)
    && OptString(b.description)
    && (b.profiles.Undefined? || IdArray(b.profiles))
    && OptString(b.timezone)
    && OptString(b.startDateTime)
    && OptString(b.endDateTime)
  }

  /** Both bounds are truthy, the refinement's guard. */
  predicate BothBounds(b: EventBody) {
    NonEmptyString(b.startDateTime) && NonEmptyString(b.endDateTime)
  }

  /** updateEventSchema: the field checks; the order is checked only when both bounds are given. */
  predicate UpdateEventSchema(b: EventBody, parse: string -> Option<Instant>) {
    UpdateFields(b) && (BothBounds(b) ==> IsAfter(parse, b.endDateTime.s, b.startDateTime.s))
  }

  /**
   * What an accepted create body carries: a non-empty title, at least one
   * profile and no empty id, non-empty zone and bounds, and an end that
   * parses to a strictly later instant than the start.
   */
  lemma CreateSchemaDemands(b: EventBody, parse: string -> Option<Instant>)
    requires CreateEventSchema(b, parse)
    ensures b.title.Str? && b.title.s != ""
    ensures b.profiles.Arr? && b.profiles.items != [] && Str("") !in b.profiles.items
    ensures b.timezone.Str? && b.timezone.s != ""
    ensures b.startDateTime.Str? && b.endDateTime.Str?
    ensures parse(b.startDateTime.s).Some? && parse(b.endDateTime.s).Some?
    ensures parse(b.endDateTime.s).value > parse(b.startDateTime.s).value
  {
    forall x | x in b.profiles.items
      ensures NonEmptyString(x)
    {
      var i :| 0 <= i < |b.profiles.items| && b.profiles.items[i] == x;
    }
  }

  /** Equal instants are rejected: the order check is strict. */
  lemma CreateSchemaRejectsEqualInstants(b: EventBody, parse: string -> Option<Instant>)
    requires b.startDateTime.Str? && b.endDateTime.Str?
    requires parse(b.startDateTime.s) == parse(b.endDateTime.s)
    ensures !CreateEventSchema(b, parse)
  {
  }

  /** An empty title, an empty profile list or an empty id is rejected, whatever the rest. */
  lemma CreateSchemaRejectsEmpty(b: EventBody, parse: string -> Option<Instant>)
    requires b.title == Str("") || b.profiles == Arr([]) || b.timezone == Str("")
          || b.startDateTime == Str("") || b.endDateTime == Str("")
          || (b.profiles.Arr? && Str("") in b.profiles.items)
    ensures !CreateEventSchema(b, parse)
  {
    if b.profiles.Arr? && Str("") in b.profiles.items {
      var i :| 0 <= i < |b.profiles.items| && b.profiles.items[i] == Str("");
      assert !NonEmptyString(b.profiles.items[i]);
    }
  }

  /** `{}` is a valid update. */
  lemma UpdateSchemaAcceptsEmpty(parse: string -> Option<Instant>)
    ensures UpdateEventSchema(EmptyBody, parse)
  {
  }

  /**
   * Without both bounds the dates are never compared: any body whose fields
   * pass is accepted, even one whose single bound is an empty string.
   */
  lemma UpdateSchemaChecksOrderOnlyWithBoth(b: EventBody, parse: string -> Option<Instant>)
    requires UpdateFields(b)
    ensures !BothBounds(b) ==> UpdateEventSchema(b, parse)
    ensures BothBounds(b) ==> (UpdateEventSchema(b, parse) <==> IsAfter(parse, b.endDateTime.s, b.startDateTime.s))
  {
  }

  /** A title that is given must not be empty. */
  lemma UpdateSchemaRejectsEmptyTitle(b: EventBody, parse: string -> Option<Instant>)
    requires b.title == Str("")
    ensures !UpdateEventSchema(b, parse)
  {
  }
}

=== FILE: event_slice.dfy ===
/**
 * The events slice of eventSlice.ts: the reducer as a pure transition on an
 * immutable state. `Pending` and `Rejected` stand for every thunk's pending
 * or rejected action (the `isPending` / `isRejected` matchers).
 */
module EventSlice {
  import opened Wrappers
  import opened Js
  import opened Seqs
  import opened Redux

  datatype EventState = EventState(
    events: seq<Doc>,
    selectedEvent: Option<Doc>,
    eventLogs: map<string, seq<Doc>>,
    progress: Progress)

  const InitialState := EventState([], None, map[], Idle)

  datatype EventAction =
    | SetSelectedEvent(event: Option<Doc>)
    | ClearEventError
    | FetchEventsFulfilled(list: seq<Doc>)
    | CreateEventFulfilled(created: Doc)
    | UpdateEventFulfilled(updated: Doc)
    | DeleteEventFulfilled(deletedId: string)
    | FetchEventLogsFulfilled(eventId: string, logs: seq<Doc>)
    | Pending
    | Rejected(rejection: Rejection)
    | Unrelated

  /** `setSelectedEvent`: only `selectedEvent` changes. */
  function OnSetSelected(s: EventState, event: Option<Doc>): (t: EventState)
    ensures t.selectedEvent == event
    ensures t.(selectedEvent := s.selectedEvent) == s
  {
    s.(selectedEvent := event)
  }

  /** `fetchEvents.fulfilled`: the list is replaced and loading ends. */
  function OnFetched(s: EventState, list: seq<Doc>): (t: EventState)
    ensures t.events == list && !t.progress.loading && t.progress.error == s.progress.error
    ensures t.(events := s.events, progress := s.progress) == s
  {
    s.(progress := Settled(s.progress), events := list)
  }

  /** `createEvent.fulfilled`: the new record is put in front of the old list. */
  function OnCreated(s: EventState, created: Doc): (t: EventState)
    ensures |t.events| == |s.events| + 1
    ensures t.events[0] == created && t.events[1..] == s.events
    ensures !t.progress.loading && t.progress.error == s.progress.error
    ensures t.(events := s.events, progress := s.progress) == s
  {
    s.(progress := Settled(s.progress), events := [created] + s.events)
  }

  /** `updateEvent.fulfilled`: the first record with the same `_id` is replaced, if any. */
  function OnUpdated(s: EventState, updated: Doc): (t: EventState)
    ensures |t.events| == |s.events|
    ensures (forall i :: 0 <= i < |s.events| ==> s.events[i].id != updated.id) ==> t.events == s.events
    ensures (exists i :: 0 <= i < |s.events| && s.events[i].id == updated.id) ==>
      exists k :: 0 <= k < |s.events| && s.events[k].id == updated.id
        && (forall j :: 0 <= j < k ==> s.events[j].id != updated.id)
        && t.events == s.events[k := updated]
    ensures !t.progress.loading && t.progress.error == s.progress.error
    ensures t.(events := s.events, progress := s.progress) == s
  {
    s.(progress := Settled(s.progress), events := ReplaceById(s.events, updated))
  }

  /** `deleteEvent.fulfilled`: every record with that `_id` goes, the rest stay. */
  function OnDeleted(s: EventState, id: string): (t: EventState)
    ensures forall x :: x in t.events <==> x in s.events && x.id != id
    ensures !t.progress.loading && t.progress.error == s.progress.error
    ensures t.(events := s.events, progress := s.progress) == s
  {
    s.(progress := Settled(s.progress), events := WithoutDoc(s.events, id))
  }

  /** `fetchEventLogs.fulfilled`: only the entry for that event id is written. */
  function OnLogsFetched(s: EventState, eventId: string, logs: seq<Doc>): (t: EventState)
    ensures t.eventLogs.Keys == s.eventLogs.Keys + {eventId}
    ensures t.eventLogs[eventId] == logs
    ensures forall k :: k in s.eventLogs && k != eventId ==> t.eventLogs[k] == s.eventLogs[k]
    ensures !t.progress.loading && t.progress.error == s.progress.error
    ensures t.(eventLogs := s.eventLogs, progress := s.progress) == s
  {
    s.(progress := Settled(s.progress), eventLogs := s.eventLogs[eventId := logs])
  }

  /** The slice reducer; an action no case or matcher handles leaves the state as it is. */
  function Reduce(s: EventState, a: EventAction): (t: EventState)
    ensures a.Unrelated? ==> t == s
    ensures a.ClearEventError? || a.Pending? || a.Rejected? ==> t.(progress := s.progress) == s
    ensures a.ClearEventError? ==> t.progress == s.progress.(error := None)
    ensures a.Pending? ==> t.progress.loading && t.progress.error.None?
    ensures a.Rejected? ==> !t.progress.loading && t.progress.error == Some(RejectedError(a.rejection))
    ensures !a.SetSelectedEvent? ==> t.selectedEvent == s.selectedEvent
    ensures !a.FetchEventLogsFulfilled? ==> t.eventLogs == s.eventLogs
  {
    match a
    case SetSelectedEvent(event) => OnSetSelected(s, event)
    case ClearEventError => s.(progress := ClearedError(s.progress))
    case FetchEventsFulfilled(list) => OnFetched(s, list)
    case CreateEventFulfilled(created) => OnCreated(s, created)
    case UpdateEventFulfilled(updated) => OnUpdated(s, updated)
    case DeleteEventFulfilled(id) => OnDeleted(s, id)
    case FetchEventLogsFulfilled(eventId, logs) => OnLogsFetched(s, eventId, logs)
    case Pending => s.(progress := Started(s.progress))
    case Rejected(rej) => s.(progress := Failed(s.progress, rej))
    case Unrelated => s
  }

  /** Creating a record with a new id and then deleting that id gives back the old list. */
  lemma CreateThenDelete(s: EventState, d: Doc)
    requires forall x :: x in s.events ==> x.id != d.id
    ensures Reduce(Reduce(s, CreateEventFulfilled(d)), DeleteEventFulfilled(d.id)).events == s.events
  {
    var created := Reduce(s, CreateEventFulfilled(d));
    assert created.events == [d] + s.events;
    var gone := WithoutDoc([d], d.id);
    assert gone == [] by {
      assert d !in gone;
    }
    WithoutDocLaws([d], s.events, d.id);
    WithoutDocLaws(s.events, [], d.id);
    assert WithoutDoc(created.events, d.id) == gone + s.events;
  }

  /** Deleting twice is deleting once. */
  lemma DeleteIdempotent(s: EventState, id: string)
    ensures Reduce(Reduce(s, DeleteEventFulfilled(id)), DeleteEventFulfilled(id)).events
         == Reduce(s, DeleteEventFulfilled(id)).events
  {
    WithoutDocLaws(s.events, [], id);
  }

  /** An update keeps the list's ids in place, so a later delete removes the same positions. */
  lemma UpdateKeepsIds(s: EventState, d: Doc)
    ensures |Reduce(s, UpdateEventFulfilled(d)).events| == |s.events|
    ensures forall i :: 0 <= i < |s.events| ==> Reduce(s, UpdateEventFulfilled(d)).events[i].id == s.events[i].id
  {
    ReplaceKeepsIds(s.events, d);
  }

  /** A pending action always clears the error a rejection left. */
  lemma RejectedThenPending(s: EventState, rej: Rejection)
    ensures Reduce(s, Rejected(rej)).progress.error.Some?
    ensures Reduce(Reduce(s, Rejected(rej)), Pending).progress.error.None?
    ensures Reduce(Reduce(s, Rejected(rej)), Pending).progress.loading
  {
  }
}

=== FILE: js.dfy ===
/**
 * The JavaScript semantics the handlers rely on: request values as they
 * arrive in a body or query, truthiness, `String(v)` and `String.prototype.trim`.
 */
module Js {
  import opened Wrappers

  /** A JSON value from a request body. Numbers are modelled as integers. */
  datatype Json =
    | Undefined
    | Null
    | Bool(b: bool)
    | Num(n: int)
    | Str(s: string)
    | Arr(items: seq<Json>)
    | Obj

  /** JavaScript truthiness, as in `if (v)` or `!v`. */
  predicate Truthy(v: Json) {
    match v
    case Undefined => false
    case Null => false
    case Bool(b) => b
    case Num(n) => n != 0
    case Str(s) => s != ""
    case Arr(_) => true
    case Obj => true
  }

  /** Truthiness of an optional string field: absent and "" are both falsy. */
  predicate Present(v: Option<string>) {
    v.Some? && v.value != ""
  }

  /** The ECMAScript WhiteSpace and LineTerminator characters that `trim` strips. */
  predicate IsSpace(c: char) {
    || c == ' ' || c == '\t' || c == '\n' || c == '\r'
    || c == '\U{000B}' || c == '\U{000C}' || c == '\U{00A0}' || c == '\U{1680}'
    || ('\U{2000}' <= c <= '\U{200A}')
    || c == '\U{2028}' || c == '\U{2029}' || c == '\U{202F}' || c == '\U{205F}'
    || c == '\U{3000}' || c == '\U{FEFF}'
  }

  predicate AllSpace(s: string) {
    forall i :: 0 <= i < |s| ==> IsSpace(s[i])
  }

  function TrimStart(s: string): (r: string)
    ensures |r| <= |s| && r == s[|s| - |r|..]
    ensures r == "" || !IsSpace(r[0])
    ensures AllSpace(s[..|s| - |r|])
  {
    if s != "" && IsSpace(s[0]) then
      var r := TrimStart(s[1..]);
      assert s[..|s| - |r|] == [s[0]] + s[1..][..|s| - 1 - |r|];
      r
    else s
  }

  function TrimEnd(s: string): (r: string)
    ensures |r| <= |s| && r == s[..|r|]
    ensures r == "" || !IsSpace(r[|r| - 1])
    ensures AllSpace(s[|r|..])
  {
    if s != "" && IsSpace(s[|s| - 1]) then
      var r := TrimEnd(s[..|s| - 1]);
      assert s[|r|..] == s[..|s| - 1][|r|..] + [s[|s| - 1]];
      r
    else s
  }

  /** `String.prototype.trim`: the slice of `s` left after stripping both ends. */
  function Trim(s: string): (r: string)
    ensures |r| <= |s|
    ensures r == "" || (!IsSpace(r[0]) && !IsSpace(r[|r| - 1]))
  {
    var t := TrimStart(s);
    var r := TrimEnd(t);
    assert r != "" ==> r[0] == t[0];
    r
  }

  /** What `trim` keeps is a slice of its input whose two margins are all whitespace. */
  lemma TrimIsSlice(s: string)
    ensures exists a :: 0 <= a <= |s| - |Trim(s)| && Trim(s) == s[a..a + |Trim(s)|]
              && AllSpace(s[..a]) && AllSpace(s[a + |Trim(s)|..])
  {
    var t := TrimStart(s);
    var r := Trim(s);
    var a := |s| - |t|;
    assert r == s[a..a + |r|];
    assert s[a + |r|..] == t[|r|..];
  }

  /** `s.trim()` is falsy exactly when `s` consists of whitespace only. */
  lemma TrimEmptyIff(s: string)
    ensures Trim(s) == "" <==> AllSpace(s)
  {
    var t := TrimStart(s);
    if Trim(s) == "" {
      assert AllSpace(t[0..]);
      assert t == "";
      assert s[..|s|] == s;
    }
  }

  /** Trimming twice is trimming once: the schema setter after a handler's own trim changes nothing. */
  lemma TrimIdempotent(s: string)
    ensures Trim(Trim(s)) == Trim(s)
  {
    var r := Trim(s);
    if r != "" {
      assert TrimStart(r) == r;
      assert TrimEnd(r) == r;
    }
  }

  function Digit(d: nat): char
    requires d < 10
  {
    "0123456789"[d]
  }

  /** Decimal rendering of a natural number. */
  function NatToString(n: nat): (r: string)
    ensures r != ""
    ensures forall i :: 0 <= i < |r| ==> '0' <= r[i] <= '9'
  {
    if n < 10 then [Digit(n)] else NatToString(n / 10) + [Digit(n % 10)]
  }

  /** `String(v)` for the values a request can carry. */
  function ToJsString(v: Json): (r: string)
    ensures (!v.Arr? && v != Str("")) ==> r != ""
    decreases v, 1
  {
    match v
    case Undefined => "undefined"
    case Null => "null"
    case Bool(b) => if b then "true" else "false"
    case Num(n) => if n < 0 then "-" + NatToString(-n) else NatToString(n)
    case Str(s) => s
    case Arr(items) => JoinItems(v, items)
    case Obj => "[object Object]"
  }

  /** `Array.prototype.join(",")`, where `null` and `undefined` elements render as "". */
  function JoinItems(ghost parent: Json, items: seq<Json>): string
    requires forall x :: x in items ==> x < parent
    decreases parent, 0, |items|
  {
    if items == [] then ""
    else
      assert items[0] in items;
      var head := if items[0].Undefined? || items[0].Null? then "" else ToJsString(items[0]);
      if |items| == 1 then head
      else
        assert forall x :: x in items[1..] ==> x in items;
        head + "," + JoinItems(parent, items[1..])
  }
}

=== FILE: models.dfy ===
/**
 * The three persisted document kinds (event.model.ts, eventlogs.model.ts,
 * user.model.ts): their fields, defaults, `trim` setters, `required`
 * validators and the pre-save hook that stamps `updated_at`.
 */
module Models {
  import opened Wrappers
  import opened Js
  import opened Time

  /** A document id (an ObjectId in its string form). */
  type Id = string

  // ---------------------------------------------------------------- Event

  datatype Event = Event(
    id: Id,
    title: string,
    description: Option<string>,
    profiles: seq<Id>,
    eventTimezone: string,
    startUtc: Instant,
    endUtc: Instant,
    createdBy: Option<Id>,
    createdAt: Instant,
    updatedAt: Instant)

  /**
   * Values for the event schema's paths, each present or absent, the two
   * timestamp paths `created_at` / `updated_at` included. `D` is how dates
   * are carried: `string` as sent in a request, `Instant` once cast.
   */
  datatype EventFields<D> = EventFields(
    title: Option<string>,
    description: Option<string>,
    profiles: Option<seq<Id>>,
    eventTimezone: Option<string>,
    startUtc: Option<D>,
    endUtc: Option<D>,
    createdBy: Option<Id>,
    createdAt: Option<D>,
    updatedAt: Option<D>)

  /** Casting one optional date path: `None` is a cast error, `Some(None)` an absent path. */
  function CastDate(v: Option<string>, parse: string -> Option<Instant>): (r: Option<Option<Instant>>)
    ensures r.Some? <==> (v.Some? ==> parse(v.value).Some?)
    ensures r.Some? ==> (r.value.Some? <==> v.Some?)
    ensures r.Some? && v.Some? ==> r.value == parse(v.value)
  {
    if v.None? then Some(None)
    else if parse(v.value).None? then None
    else Some(parse(v.value))
  }

  /** Every date the body gives casts to an instant. */
  predicate DatesCast(f: EventFields<string>, parse: string -> Option<Instant>) {
    && (f.startUtc.Some? ==> parse(f.startUtc.value).Some?)
    && (f.endUtc.Some? ==> parse(f.endUtc.value).Some?)
    && (f.createdAt.Some? ==> parse(f.createdAt.value).Some?)
    && (f.updatedAt.Some? ==> parse(f.updatedAt.value).Some?)
  }

  /** Casting the four date paths of a body; `None` is a cast error. */
  function CastDates(f: EventFields<string>, parse: string -> Option<Instant>): (r: Option<EventFields<Instant>>)
    ensures r.Some? <==> DatesCast(f, parse)
    ensures r.Some? ==>
      && r.value.title == f.title && r.value.description == f.description
      && r.value.profiles == f.profiles && r.value.eventTimezone == f.eventTimezone
      && r.value.createdBy == f.createdBy
      && (r.value.startUtc.Some? <==> f.startUtc.Some?)
      && (r.value.endUtc.Some? <==> f.endUtc.Some?)
      && (r.value.createdAt.Some? <==> f.createdAt.Some?)
      && (r.value.updatedAt.Some? <==> f.updatedAt.Some?)
    ensures r.Some? && f.startUtc.Some? ==> r.value.startUtc == parse(f.startUtc.value)
    ensures r.Some? && f.endUtc.Some? ==> r.value.endUtc == parse(f.endUtc.value)
    ensures r.Some? && f.createdAt.Some? ==> r.value.createdAt == parse(f.createdAt.value)
    ensures r.Some? && f.updatedAt.Some? ==> r.value.updatedAt == parse(f.updatedAt.value)
  {
    var start := CastDate(f.startUtc, parse);
    var end := CastDate(f.endUtc, parse);
    var created := CastDate(f.createdAt, parse);
    var updated := CastDate(f.updatedAt, parse);
    if start.None? || end.None? || created.None? || updated.None? then None
    else Some(EventFields(f.title, f.description, f.profiles, f.eventTimezone,
                          start.value, end.value, f.createdBy, created.value, updated.value))
  }

  /** The `trim: true` setter of an optional string path. */
  function TrimOpt(v: Option<string>): Option<string> {
    if v.Some? then Some(Trim(v.value)) else None
  }

  /** What `required: true` demands of a stored event: non-empty `title` and `eventTimezone`. */
  predicate ValidEvent(e: Event) {
    e.title != "" && e.eventTimezone != ""
  }

  /**
   * A new event document: setters trim `title` and `description`, `eventTimezone`
   * defaults to "UTC", `profiles` to [], and each timestamp to `now` unless
   * given. The two dates are required paths: without them there is no document.
   */
  function BuildEvent(id: Id, f: EventFields<Instant>, now: Instant): (r: Option<Event>)
    ensures r.Some? <==> f.startUtc.Some? && f.endUtc.Some?
    ensures r.Some? ==>
      && r.value.id == id
      && r.value.title == Trim(f.title.GetOr(""))
      && r.value.description == TrimOpt(f.description)
      && r.value.profiles == f.profiles.GetOr([])
      && r.value.eventTimezone == f.eventTimezone.GetOr("UTC")
      && r.value.startUtc == f.startUtc.value && r.value.endUtc == f.endUtc.value
      && r.value.createdBy == f.createdBy
      && r.value.createdAt == f.createdAt.GetOr(now) && r.value.updatedAt == f.updatedAt.GetOr(now)
  {
    if f.startUtc.None? || f.endUtc.None? then None
    else Some(Event(id, Trim(f.title.GetOr("")), TrimOpt(f.description), f.profiles.GetOr([]),
                    f.eventTimezone.GetOr("UTC"), f.startUtc.value, f.endUtc.value, f.createdBy,
                    f.createdAt.GetOr(now), f.updatedAt.GetOr(now)))
  }

  /**
   * `doc.save()`: validation first, then the pre-save hook refreshes `updated_at`.
   * `None` is a validation error, and nothing is written.
   */
  function SaveEvent(e: Event, now: Instant): (r: Option<Event>)
    ensures r.Some? <==> ValidEvent(e)
    ensures r.Some? ==> r.value.updatedAt == now && r.value.(updatedAt := e.updatedAt) == e
  {
    if ValidEvent(e) then Some(e.(updatedAt := now)) else None
  }

  /** `eventModel.create(fields)`: build, then save, whose hook overrides any given `updated_at`. */
  function CreateEventDoc(id: Id, f: EventFields<Instant>, now: Instant): (r: Option<Event>)
    ensures r.Some? <==>
      && f.startUtc.Some? && f.endUtc.Some?
      && Trim(f.title.GetOr("")) != ""
      && f.eventTimezone != Some("")
    ensures r.Some? ==>
      && r.value.id == id
      && r.value.title == Trim(f.title.GetOr(""))
      && r.value.description == TrimOpt(f.description)
      && r.value.profiles == f.profiles.GetOr([])
      && r.value.eventTimezone == f.eventTimezone.GetOr("UTC")
      && r.value.startUtc == f.startUtc.value && r.value.endUtc == f.endUtc.value
      && r.value.createdBy == f.createdBy
      && r.value.createdAt == f.createdAt.GetOr(now) && r.value.updatedAt == now
  {
    match BuildEvent(id, f, now)
    case None => None
    case Some(e) => SaveEvent(e, now)
  }

  /**
   * `Object.assign(doc, fields)` or the `$set` of `findByIdAndUpdate`: every
   * present path is overwritten (through its setter), every absent one is kept.
   * The id is never touched; the two timestamps only when the body gives them.
   */
  function ApplyFields(e: Event, f: EventFields<Instant>): (r: Event)
    ensures r.id == e.id
    ensures r.createdAt == f.createdAt.GetOr(e.createdAt) && r.updatedAt == f.updatedAt.GetOr(e.updatedAt)
    ensures r.title == (if f.title.Some? then Trim(f.title.value) else e.title)
    ensures r.description == (if f.description.Some? then TrimOpt(f.description) else e.description)
    ensures r.profiles == f.profiles.GetOr(e.profiles)
    ensures r.eventTimezone == f.eventTimezone.GetOr(e.eventTimezone)
    ensures r.startUtc == f.startUtc.GetOr(e.startUtc) && r.endUtc == f.endUtc.GetOr(e.endUtc)
    ensures r.createdBy == (if f.createdBy.Some? then f.createdBy else e.createdBy)
  {
    e.(title := if f.title.Some? then Trim(f.title.value) else e.title,
       description := if f.description.Some? then TrimOpt(f.description) else e.description,
       profiles := f.profiles.GetOr(e.profiles),
       eventTimezone := f.eventTimezone.GetOr(e.eventTimezone),
       startUtc := f.startUtc.GetOr(e.startUtc),
       endUtc := f.endUtc.GetOr(e.endUtc),
       createdBy := if f.createdBy.Some? then f.createdBy else e.createdBy,
       createdAt := f.createdAt.GetOr(e.createdAt),
       updatedAt := f.updatedAt.GetOr(e.updatedAt))
  }

  /** The model itself puts no order on the two instants: any pair is stored as given. */
  lemma EventAllowsAnyRange(id: Id, title: string, start: Instant, end: Instant, now: Instant)
    requires Trim(title) != ""
    ensures var r := CreateEventDoc(id, EventFields(Some(title), None, None, None, Some(start), Some(end), None, None, None), now);
            r.Some? && r.value.startUtc == start && r.value.endUtc == end
  {
  }

  // ------------------------------------------------------------- EventLog

  /** An audit record. `updatedBy` is a required path, so a stored log always has one. */
  datatype EventLog = EventLog(
    id: Id,
    eventId: Id,
    updatedBy: Id,
    before: Event,
    after: Event,
    timestampUtc: Instant,
    createdAt: Instant,
    updatedAt: Instant)

  /** The values handed to `eventLogModel.create`; `None` stands for null or absent. */
  datatype LogFields = LogFields(
    eventId: Option<Id>,
    updatedBy: Option<Id>,
    before: Option<Event>,
    after: Option<Event>,
    timestampUtc: Option<Instant>)

  /**
   * `eventLogModel.create(fields)`: `eventId`, `updatedBy`, `before` and `after`
   * are required; `timestampUtc` and `created_at` default to `now`, and the
   * pre-save hook sets `updated_at` to `now`.
   */
  function CreateLogDoc(id: Id, f: LogFields, now: Instant): (r: Option<EventLog>)
    ensures r.Some? <==> f.eventId.Some? && f.updatedBy.Some? && f.before.Some? && f.after.Some?
    ensures r.Some? ==>
      && r.value.id == id && r.value.eventId == f.eventId.value && r.value.updatedBy == f.updatedBy.value
      && r.value.before == f.before.value && r.value.after == f.after.value
      && r.value.timestampUtc == f.timestampUtc.GetOr(now)
      && r.value.createdAt == now && r.value.updatedAt == now
  {
    if f.eventId.None? || f.updatedBy.None? || f.before.None? || f.after.None? then None
    else Some(EventLog(id, f.eventId.value, f.updatedBy.value, f.before.value, f.after.value,
                       f.timestampUtc.GetOr(now), now, now))
  }

  // -------------------------------------------------------------- Profile

  /**
   * A profile. `activeProfiles` is the session list `setActiveProfiles`
   * writes, absent until first set; user.model.ts declares no such path, so
   * this field is what the session handlers assume rather than what the
   * schema stores.
   */
  datatype Profile = Profile(
    id: Id,
    name: string,
    timezone: string,
    activeProfiles: Option<seq<Json>>,
    createdAt: Instant,
    updatedAt: Instant)

  /** What `required: true` demands of a stored profile. */
  predicate ValidProfile(p: Profile) {
    p.name != "" && p.timezone != ""
  }

  /** `doc.save()` on a profile: validate, then refresh `updated_at`. */
  function SaveProfile(p: Profile, now: Instant): (r: Option<Profile>)
    ensures r.Some? <==> ValidProfile(p)
    ensures r.Some? ==> r.value.updatedAt == now && r.value.(updatedAt := p.updatedAt) == p
  {
    if ValidProfile(p) then Some(p.(updatedAt := now)) else None
  }

  /**
   * `new profileModel({name, timezone}).save()`: the name is trimmed and
   * required, the zone defaults to "UTC", `created_at` to `now`.
   */
  function CreateProfileDoc(id: Id, name: Option<string>, timezone: Option<string>, now: Instant): (r: Option<Profile>)
    ensures r.Some? <==> Trim(name.GetOr("")) != "" && timezone != Some("")
    ensures r.Some? ==>
      && r.value.id == id && r.value.name == Trim(name.value)
      && r.value.timezone == timezone.GetOr("UTC")
      && r.value.activeProfiles.None?
      && r.value.createdAt == now && r.value.updatedAt == now
  {
    SaveProfile(Profile(id, Trim(name.GetOr("")), timezone.GetOr("UTC"), None, now, now), now)
  }
}

=== FILE: profile_controller.dfy ===
/**
 * The profile handlers of profile.controller.ts: create, read, the update
 * payload builder, and the events-of-a-profile view.
 */
module ProfileController {
  import opened Wrappers
  import opened Js
  import opened Time
  import opened Seqs
  import opened Models
  import opened Store
  import EventController

  /** `(tz && String(tz)) || "UTC"`: never empty, and not checked against any zone list. */
  function ZoneOrUtc(tz: Json): (z: string)
    ensures z != ""
    ensures !Truthy(tz) ==> z == "UTC"
    ensures tz.Str? && tz.s != "" ==> z == tz.s
  {
    if Truthy(tz) && ToJsString(tz) != "" then ToJsString(tz) else "UTC"
  }

  /** The name check of `createProfile`: a string that is not blank. */
  predicate ValidName(name: Json) {
    Truthy(name) && name.Str? && Trim(name.s) != ""
  }

  /**
   * POST /profiles. A missing, non-string or whitespace-only name answers 400.
   * Otherwise the trimmed name is stored with the zone (default "UTC").
   */
  function CreateProfile(db: Db, name: Json, tz: Json, newId: Id, now: Instant): (r: Outcome<Profile>)
    ensures r.response.status in {201, 400, 500}
    ensures r.response.status == 400 <==> !(name.Str? && !AllSpace(name.s))
    ensures r.response.status == 201 <==> name.Str? && !AllSpace(name.s) && newId !in db.profiles
    ensures r.response.status != 201 ==> r.db == db
    ensures WellKeyed(db) ==> WellKeyed(r.db)
    ensures r.response.status == 201 ==>
      && r.response.data.Some?
      && var p := r.response.data.value;
      && r.db == db.(profiles := db.profiles[newId := p])
      && p.id == newId
      && p.name == Trim(name.s)
      && p.timezone == ZoneOrUtc(tz)
      && p.activeProfiles.None?
      && p.createdAt == now && p.updatedAt == now
  {
    TrimEmptyIff(if name.Str? then name.s else "");
    if !ValidName(name) then Outcome(db, Fail(400, "Invalid name provided"))
    else
      match CreateProfileDoc(newId, Some(Trim(name.s)), Some(ZoneOrUtc(tz)), now)
      case None => Outcome(db, Fail(500, "Internal Server Error"))
      case Some(p) =>
        TrimIdempotent(name.s);
        PutProfileWellKeyed(db, p);
        if newId in db.profiles then Outcome(db, Fail(500, "Internal Server Error"))
        else Outcome(db.(profiles := db.profiles[newId := p]), Ok(201, "Profile created successfully", p))
  }

  /** GET /profiles/:profileId. */
  function GetProfileById(db: Db, profileId: Id): (r: Response<Profile>)
    ensures r.status in {200, 400, 404}
    ensures r.status == 400 <==> profileId == ""
    ensures r.status == 404 <==> profileId != "" && profileId !in db.profiles
    ensures r.status == 200 ==> r.data == Some(db.profiles[profileId])
  {
    if profileId == "" then Fail(400, "profileId param is required")
    else if profileId !in db.profiles then Fail(404, "Profile not found")
    else Ok(200, "Profile fetched successfully", db.profiles[profileId])
  }

  /** One entry of the update payload: present only for a non-blank string, trimmed. */
  function Entry(v: Json): (r: Option<string>)
    ensures r.Some? <==> v.Str? && !AllSpace(v.s)
    ensures r.Some? ==> r.value == Trim(v.s) && r.value != ""
  {
    TrimEmptyIff(if v.Str? then v.s else "");
    if v.Str? && Trim(v.s) != "" then Some(Trim(v.s)) else None
  }

  /**
   * The profile `findByIdAndUpdate` leaves after the payload: each entry
   * overwrites its path (the name again through its trim setter), and no
   * other path changes.
   */
  function Updated(prior: Profile, name: Json, tz: Json): (p: Profile)
    ensures p.name == (if name.Str? && !AllSpace(name.s) then Trim(name.s) else prior.name)
    ensures p.timezone == (if tz.Str? && !AllSpace(tz.s) then Trim(tz.s) else prior.timezone)
    ensures p.(name := prior.name, timezone := prior.timezone) == prior
  {
    var newName := Entry(name);
    TrimIdempotent(if name.Str? then name.s else "");
    prior.(name := if newName.Some? then Trim(newName.value) else prior.name,
           timezone := Entry(tz).GetOr(prior.timezone))
  }

  /**
   * PUT /profiles/:profileId. Only a non-blank string `name` / `timezone`
   * enters the payload, trimmed; `findByIdAndUpdate` writes just those paths,
   * without the save hook.
   */
  function UpdateProfile(db: Db, profileId: Id, name: Json, tz: Json): (r: Outcome<Profile>)
    ensures r.response.status in {200, 400, 404}
    ensures r.response.status == 400 <==> profileId == ""
    ensures r.response.status == 404 <==> profileId != "" && profileId !in db.profiles
    ensures r.db.events == db.events && r.db.logs == db.logs
    ensures r.response.status != 200 ==> r.db == db
    ensures WellKeyed(db) ==> WellKeyed(r.db)
    ensures r.response.status == 200 ==>
      && r.response.data.Some?
      && var prior := db.profiles[profileId];
      && var p := r.response.data.value;
      && r.db.profiles == db.profiles[profileId := p]
      && p.name == (if name.Str? && !AllSpace(name.s) then Trim(name.s) else prior.name)
      && p.timezone == (if tz.Str? && !AllSpace(tz.s) then Trim(tz.s) else prior.timezone)
      && p.(name := prior.name, timezone := prior.timezone) == prior
  {
    if profileId == "" then Outcome(db, Fail(400, "profileId param is required"))
    else if profileId !in db.profiles then Outcome(db, Fail(404, "Profile not found"))
    else
      var p := Updated(db.profiles[profileId], name, tz);
      Outcome(db.(profiles := db.profiles[profileId := p]), Ok(200, "Profile updated successfully", p))
  }

  /** An event as `getProfileEvents` shapes it for the profile's zone. */
  datatype ShapedEvent = ShapedEvent(
    id: Id,
    title: string,
    description: string,
    start: Instant,
    end: Instant,
    timezone: string,
    createdBy: Option<Id>,
    profiles: seq<Id>,
    createdAtLocal: Option<string>,
    updatedAtLocal: Option<string>)

  datatype ProfileSummary = ProfileSummary(id: Id, name: string, timezone: string)

  datatype ProfileEvents = ProfileEvents(profile: ProfileSummary, events: seq<ShapedEvent>)

  /** `profile.timezone || "UTC"`. */
  function ZoneOf(p: Profile): (z: string)
    ensures z != ""
    ensures p.timezone != "" ==> z == p.timezone
    ensures p.timezone == "" ==> z == "UTC"
  {
    if p.timezone != "" then p.timezone else "UTC"
  }

  /**
   * One event, shaped: its two dates shifted into `zone`, the description
   * defaulting to "", the creator to null, and `timezone` set to `zone`. The
   * two local timestamps read `createdAt` / `updatedAt`, which the document
   * does not have (its paths are `created_at` / `updated_at`), so both are null.
   */
  function Shape(e: Event, zone: string, shift: (Instant, string) -> Option<Instant>): (r: Option<ShapedEvent>)
    ensures r.Some? <==> shift(e.startUtc, zone).Some? && shift(e.endUtc, zone).Some?
    ensures r.Some? ==>
      && r.value.id == e.id && r.value.title == e.title
      && r.value.description == e.description.GetOr("")
      && r.value.start == shift(e.startUtc, zone).value && r.value.end == shift(e.endUtc, zone).value
      && r.value.timezone == zone
      && r.value.createdBy == e.createdBy && r.value.profiles == e.profiles
      && r.value.createdAtLocal.None? && r.value.updatedAtLocal.None?
  {
    match (shift(e.startUtc, zone), shift(e.endUtc, zone))
    case (Some(start), Some(end)) =>
      Some(ShapedEvent(e.id, e.title, e.description.GetOr(""), start, end, zone, e.createdBy, e.profiles, None, None))
    case _ => None
  }

  /** `events.map(shape)`: `None` when the library throws for some event. */
  function ShapeAll(events: map<Id, Event>, ks: seq<Id>, zone: string, shift: (Instant, string) -> Option<Instant>): (r: Option<seq<ShapedEvent>>)
    requires forall k :: k in ks ==> k in events
    ensures r.Some? <==> forall i :: 0 <= i < |ks| ==> Shape(events[ks[i]], zone, shift).Some?
    ensures r.Some? ==> (|r.value| == |ks| &&
      forall i :: 0 <= i < |ks| ==> r.value[i] == Shape(events[ks[i]], zone, shift).value)
  {
    if ks == [] then Some([])
    else
      match Shape(events[ks[0]], zone, shift)
      case None => None
      case Some(first) =>
        match ShapeAll(events, ks[1..], zone, shift)
        case None => None
        case Some(rest) => Some([first] + rest)
  }

  /** The ids of a list of shaped events, in order. */
  function IdsOf(evs: seq<ShapedEvent>): (r: seq<Id>)
    ensures |r| == |evs| && forall i :: 0 <= i < |evs| ==> r[i] == evs[i].id
  {
    seq(|evs|, i requires 0 <= i < |evs| => evs[i].id)
  }

  /**
   * GET /profiles/:profileId/events. 404 for an unknown profile; otherwise the
   * events whose assigned list contains the id, ascending by start, each
   * shaped for the profile's zone (or "UTC").
   */
  method GetProfileEvents(db: Db, profileId: Id, lib: TzLib) returns (r: Response<ProfileEvents>)
    requires WellKeyed(db)
    ensures r.status in {200, 400, 404, 500}
    ensures r.status == 400 <==> profileId == ""
    ensures r.status == 404 <==> profileId != "" && profileId !in db.profiles
    ensures r.status == 500 <==>
      && profileId != "" && profileId in db.profiles
      && exists k :: k in db.events && profileId in db.events[k].profiles
                   && Shape(db.events[k], ZoneOf(db.profiles[profileId]), lib.shift).None?
    ensures r.status == 200 ==>
      && r.data.Some?
      && var p := db.profiles[profileId];
      && var evs := r.data.value.events;
      && r.data.value.profile == ProfileSummary(p.id, p.name, p.timezone)
      && NoDup(IdsOf(evs))
      && (forall k :: k in IdsOf(evs) <==> k in db.events && profileId in db.events[k].profiles)
      && (forall i :: 0 <= i < |evs| ==>
            (evs[i].id in db.events && Shape(db.events[evs[i].id], ZoneOf(p), lib.shift) == Some(evs[i])))
      && (forall i, j :: 0 <= i < j < |evs| ==> db.events[evs[i].id].startUtc <= db.events[evs[j].id].startUtc)
  {
    if profileId == "" {
      return Fail(400, "profileId param is required");
    }
    if profileId !in db.profiles {
      return Fail(404, "Profile not found");
    }
    var p := db.profiles[profileId];
    var zone := ZoneOf(p);
    var ks := SortedKeysWhere(db.events, (e: Event) => profileId in e.profiles);
    match ShapeAll(db.events, ks, zone, lib.shift)
    case None =>
      var i :| 0 <= i < |ks| && Shape(db.events[ks[i]], zone, lib.shift).None?;
      assert ks[i] in db.events && profileId in db.events[ks[i]].profiles;
      return Fail(500, "Error fetching profile events");
    case Some(evs) =>
      forall k | k in db.events && profileId in db.events[k].profiles
        ensures Shape(db.events[k], zone, lib.shift).Some?
      {
        var i :| 0 <= i < |ks| && ks[i] == k;
      }
      assert IdsOf(evs) == ks;
      r := Ok(200, "Events for profile fetched successfully",
              ProfileEvents(ProfileSummary(p.id, p.name, p.timezone), evs));
  }

  /** Reading a profile back after an update gives exactly the updated profile. */
  lemma UpdateThenGetProfile(db: Db, profileId: Id, name: Json, tz: Json)
    requires profileId != "" && profileId in db.profiles
    ensures var u := UpdateProfile(db, profileId, name, tz);
      && u.response.status == 200
      && GetProfileById(u.db, profileId)
         == Ok(200, "Profile fetched successfully", Updated(db.profiles[profileId], name, tz))
  {
  }

  /** Reading a profile back after its creation gives the created profile. */
  lemma CreateThenGetProfile(db: Db, name: Json, tz: Json, newId: Id, now: Instant)
    requires name.Str? && !AllSpace(name.s) && newId != "" && newId !in db.profiles
    ensures var c := CreateProfile(db, name, tz, newId, now);
      && c.response.status == 201
      && GetProfileById(c.db, newId) == Ok(200, "Profile fetched successfully", c.response.data.value)
  {
  }

  /**
   * After a successful assignment, the events view of each assigned profile
   * lists the event, unless the library throws while shaping.
   */
  method AssignedEventIsListed(db: Db, eventId: Id, profileIds: Json, now: Instant, lib: TzLib, profileId: Id)
    returns (r: Response<ProfileEvents>)
    requires WellKeyed(db)
    requires EventController.AssignAccepted(db, eventId, profileIds) && ValidEvent(db.events[eventId])
    requires profileId != "" && profileId in EventController.StringItems(profileIds.items).value
    ensures r.status in {200, 500}
    ensures r.status == 200 ==> r.data.Some? && eventId in IdsOf(r.data.value.events)
  {
    var a := EventController.AssignProfiles(db, eventId, profileIds, now);
    assert profileId in a.db.events[eventId].profiles;
    r := GetProfileEvents(a.db, profileId, lib);
  }
}

=== FILE: profile_schema.dfy ===
/** createProfileSchema / updateProfileSchema of profile.schema.ts as predicates. */
module ProfileSchema {
  import opened Js
  import opened Zod
  import opened Time
  import opened Models
  import opened Store
  import ProfileController

  datatype ProfileBody = ProfileBody(name: Json, timezone: Json)

  /** createProfileSchema: a non-empty name; the zone, if given, any string. */
  predicate CreateProfileSchema(b: ProfileBody) {
    NonEmptyString(b.name) && OptString(b.timezone)
  }

  /** updateProfileSchema: both optional; a given name must not be empty. */
  predicate UpdateProfileSchema(b: ProfileBody) {
    OptNonEmptyString(b.name) && OptString(b.timezone)
  }

  /** An empty name is rejected, a missing zone is not. */
  lemma CreateProfileSchemaFields(name: string, tz: Json)
    ensures !CreateProfileSchema(ProfileBody(Str(""), tz))
    ensures name != "" ==> CreateProfileSchema(ProfileBody(Str(name), Undefined))
  {
  }

  /** `{}` is a valid update, and a given name must not be empty. */
  lemma UpdateProfileSchemaFields(tz: Json)
    ensures UpdateProfileSchema(ProfileBody(Undefined, Undefined))
    ensures !UpdateProfileSchema(ProfileBody(Str(""), tz))
  {
  }

  /**
   * The schema does not trim: a whitespace-only name passes it, while the
   * create handler answers 400 for the same name.
   */
  lemma BlankNamePassesSchemaOnly(db: Db, name: string, tz: Json, newId: Id, now: Instant)
    requires name != "" && AllSpace(name)
    ensures CreateProfileSchema(ProfileBody(Str(name), Undefined))
    ensures ProfileController.CreateProfile(db, Str(name), tz, newId, now).response.status == 400
  {
  }
}

=== FILE: profile_slice.dfy ===
/**
 * The profiles slice of profileSlice.ts: the reducer as a pure transition
 * on an immutable state. `Pending` and `Rejected` stand for every thunk's
 * pending or rejected action.
 */
module ProfileSlice {
  import opened Wrappers
  import opened Js
  import opened Seqs
  import opened Redux

  datatype ProfileState = ProfileState(
    profiles: seq<Doc>,
    currentProfile: Option<Doc>,
    profileEvents: map<string, seq<Doc>>,
    progress: Progress)

  const InitialState := ProfileState([], None, map[], Idle)

  datatype ProfileAction =
    | SetCurrentProfile(profile: Option<Doc>)
    | ClearError
    | FetchProfilesFulfilled(list: seq<Doc>)
    | CreateProfileFulfilled(created: Doc)
    | UpdateProfileFulfilled(updated: Doc)
    | FetchProfileEventsFulfilled(profileId: string, events: seq<Doc>)
    | Pending
    | Rejected(rejection: Rejection)
    | Unrelated

  /** `setCurrentProfile`: only `currentProfile` changes. */
  function OnSetCurrent(s: ProfileState, profile: Option<Doc>): (t: ProfileState)
    ensures t.currentProfile == profile
    ensures t.(currentProfile := s.currentProfile) == s
  {
    s.(currentProfile := profile)
  }

  /** `fetchProfiles.fulfilled`: the list is replaced and loading ends. */
  function OnFetched(s: ProfileState, list: seq<Doc>): (t: ProfileState)
    ensures t.profiles == list && !t.progress.loading && t.progress.error == s.progress.error
    ensures t.(profiles := s.profiles, progress := s.progress) == s
  {
    s.(progress := Settled(s.progress), profiles := list)
  }

  /** `createProfile.fulfilled`: the new record is put in front of the old list. */
  function OnCreated(s: ProfileState, created: Doc): (t: ProfileState)
    ensures |t.profiles| == |s.profiles| + 1
    ensures t.profiles[0] == created && t.profiles[1..] == s.profiles
    ensures !t.progress.loading && t.progress.error == s.progress.error
    ensures t.(profiles := s.profiles, progress := s.progress) == s
  {
    s.(progress := Settled(s.progress), profiles := [created] + s.profiles)
  }

  /**
   * `updateProfile.fulfilled`: the first record with the same `_id` is
   * replaced, if any; `currentProfile` keeps its possibly stale copy.
   */
  function OnUpdated(s: ProfileState, updated: Doc): (t: ProfileState)
    ensures |t.profiles| == |s.profiles|
    ensures (forall i :: 0 <= i < |s.profiles| ==> s.profiles[i].id != updated.id) ==> t.profiles == s.profiles
    ensures (exists i :: 0 <= i < |s.profiles| && s.profiles[i].id == updated.id) ==>
      exists k :: 0 <= k < |s.profiles| && s.profiles[k].id == updated.id
        && (forall j :: 0 <= j < k ==> s.profiles[j].id != updated.id)
        && t.profiles == s.profiles[k := updated]
    ensures t.currentProfile == s.currentProfile
    ensures !t.progress.loading && t.progress.error == s.progress.error
    ensures t.(profiles := s.profiles, progress := s.progress) == s
  {
    s.(progress := Settled(s.progress), profiles := ReplaceById(s.profiles, updated))
  }

  /** `fetchProfileEvents.fulfilled`: only the entry for that profile id is written. */
  function OnEventsFetched(s: ProfileState, profileId: string, events: seq<Doc>): (t: ProfileState)
    ensures t.profileEvents.Keys == s.profileEvents.Keys + {profileId}
    ensures t.profileEvents[profileId] == events
    ensures forall k :: k in s.profileEvents && k != profileId ==> t.profileEvents[k] == s.profileEvents[k]
    ensures !t.progress.loading && t.progress.error == s.progress.error
    ensures t.(profileEvents := s.profileEvents, progress := s.progress) == s
  {
    s.(progress := Settled(s.progress), profileEvents := s.profileEvents[profileId := events])
  }

  /** The slice reducer; an action no case or matcher handles leaves the state as it is. */
  function Reduce(s: ProfileState, a: ProfileAction): (t: ProfileState)
    ensures a.Unrelated? ==> t == s
    ensures a.ClearError? || a.Pending? || a.Rejected? ==> t.(progress := s.progress) == s
    ensures a.ClearError? ==> t.progress == s.progress.(error := None)
    ensures a.Pending? ==> t.progress.loading && t.progress.error.None?
    ensures a.Rejected? ==> !t.progress.loading && t.progress.error == Some(RejectedError(a.rejection))
    ensures !a.SetCurrentProfile? ==> t.currentProfile == s.currentProfile
    ensures !a.FetchProfileEventsFulfilled? ==> t.profileEvents == s.profileEvents
  {
    match a
    case SetCurrentProfile(profile) => OnSetCurrent(s, profile)
    case ClearError => s.(progress := ClearedError(s.progress))
    case FetchProfilesFulfilled(list) => OnFetched(s, list)
    case CreateProfileFulfilled(created) => OnCreated(s, created)
    case UpdateProfileFulfilled(updated) => OnUpdated(s, updated)
    case FetchProfileEventsFulfilled(profileId, events) => OnEventsFetched(s, profileId, events)
    case Pending => s.(progress := Started(s.progress))
    case Rejected(rej) => s.(progress := Failed(s.progress, rej))
    case Unrelated => s
  }

  /** Creating a profile and then updating it with a new copy leaves the new copy at the front. */
  lemma CreateThenUpdate(s: ProfileState, d: Doc, d2: Doc)
    requires d2.id == d.id
    ensures Reduce(Reduce(s, CreateProfileFulfilled(d)), UpdateProfileFulfilled(d2)).profiles == [d2] + s.profiles
  {
    var list := Reduce(s, CreateProfileFulfilled(d)).profiles;
    assert list[0].id == d2.id;
  }

  /** Fetching the events of two different profiles keeps both lists, in either order. */
  lemma EventsFetchedCommute(s: ProfileState, p1: string, e1: seq<Doc>, p2: string, e2: seq<Doc>)
    requires p1 != p2
    ensures Reduce(Reduce(s, FetchProfileEventsFulfilled(p1, e1)), FetchProfileEventsFulfilled(p2, e2))
         == Reduce(Reduce(s, FetchProfileEventsFulfilled(p2, e2)), FetchProfileEventsFulfilled(p1, e1))
  {
  }
}

=== FILE: redux.dfy ===
/**
 * What the two frontend slices share: records as received from the API
 * (only their `_id` is ever inspected), the rejected-thunk error rule, and
 * the two list edits by id.
 */
module Redux {
  import opened Wrappers
  import opened Js
  import opened Seqs

  /** A record from the API: its `_id`, and the fields the reducers never read. */
  datatype Doc = Doc(id: string, body: Json)

  /** A rejected thunk action: its `payload` (a `rejectWithValue` value) and `error.message`. */
  datatype Rejection = Rejection(payload: Json, message: Option<string>)

  /** The error a rejected action leaves in the state. */
  function RejectedError(rej: Rejection): string {
    if rej.payload.Str? then rej.payload.s else rej.message.GetOr("Something went wrong")
  }

  /** The request status both slices keep: whether a thunk is in flight, and the last error. */
  datatype Progress = Progress(loading: bool, error: Option<string>)

  const Idle := Progress(false, None)

  /** The slices' clear-error reducers: the error goes and loading is kept. */
  function ClearedError(p: Progress): (q: Progress)
    ensures q.error.None? && q.loading == p.loading
  {
    p.(error := None)
  }

  /** Every fulfilled case: loading ends and the error is kept. */
  function Settled(p: Progress): (q: Progress)
    ensures !q.loading && q.error == p.error
  {
    p.(loading := false)
  }

  /** The `isPending` matcher: loading starts and the error clears, whatever came before. */
  function Started(p: Progress): (q: Progress)
    ensures q.loading && q.error.None?
  {
    Progress(true, None)
  }

  /**
   * The `isRejected` matcher: loading ends; the error is the payload when it
   * is a string, else the error message, else "Something went wrong".
   */
  function Failed(p: Progress, rej: Rejection): (q: Progress)
    ensures !q.loading && q.error.Some?
    ensures rej.payload.Str? ==> q.error.value == rej.payload.s
    ensures !rej.payload.Str? && rej.message.Some? ==> q.error.value == rej.message.value
    ensures !rej.payload.Str? && rej.message.None? ==> q.error.value == "Something went wrong"
  {
    Progress(false, Some(RejectedError(rej)))
  }

  /** `findIndex` by `_id`, then overwrite that one slot. */
  function ReplaceById(list: seq<Doc>, d: Doc): (r: seq<Doc>)
    ensures |r| == |list|
    ensures (forall i :: 0 <= i < |list| ==> list[i].id != d.id) ==> r == list
    ensures (exists i :: 0 <= i < |list| && list[i].id == d.id) ==>
      exists k :: 0 <= k < |list| && list[k].id == d.id
        && (forall j :: 0 <= j < k ==> list[j].id != d.id)
        && r == list[k := d]
  {
    var k := FindIndex(list, (x: Doc) => x.id == d.id);
    if k == -1 then list else list[k := d]
  }

  /** Replacing by id keeps the id at every position, so the list's ids are unchanged. */
  lemma ReplaceKeepsIds(list: seq<Doc>, d: Doc)
    ensures forall i :: 0 <= i < |list| ==> ReplaceById(list, d)[i].id == list[i].id
  {
  }

  /** `filter((e) => e._id !== id)`. */
  function WithoutDoc(list: seq<Doc>, id: string): (r: seq<Doc>)
    ensures |r| <= |list|
    ensures forall x :: x in r <==> x in list && x.id != id
  {
    Filter(list, (x: Doc) => x.id != id)
  }

  /**
   * Removing by id keeps the others in order (it distributes over
   * concatenation), is a no-op when no record has that id, and is idempotent.
   */
  lemma WithoutDocLaws(a: seq<Doc>, b: seq<Doc>, id: string)
    ensures WithoutDoc(a + b, id) == WithoutDoc(a, id) + WithoutDoc(b, id)
    ensures (forall x :: x in a ==> x.id != id) ==> WithoutDoc(a, id) == a
    ensures WithoutDoc(WithoutDoc(a, id), id) == WithoutDoc(a, id)
  {
    var keep := (x: Doc) => x.id != id;
    FilterConcat(a, b, keep);
    if forall x :: x in a ==> x.id != id {
      FilterKeepsAll(a, keep);
    }
    FilterIdempotent(a, keep);
  }
}

=== FILE: seqs.dfy ===
/**
 * The list operations the handlers and reducers are built from:
 * `Array.prototype.filter`, `findIndex`, de-duplication through a `Set`,
 * and an ascending sort on an integer key.
 */
module Seqs {

  /** `s.filter(keep)`. */
  function Filter<T(!new)>(s: seq<T>, keep: T -> bool): (r: seq<T>)
    ensures |r| <= |s|
    ensures forall x :: x in r <==> x in s && keep(x)
  {
    if s == [] then []
    else (if keep(s[0]) then [s[0]] else []) + Filter(s[1..], keep)
  }

  /** Filtering is done element by element, so it keeps the relative order of what it keeps. */
  lemma {:induction false} FilterConcat<T(!new)>(a: seq<T>, b: seq<T>, keep: T -> bool)
    ensures Filter(a + b, keep) == Filter(a, keep) + Filter(b, keep)
  {
    if a == [] {
      assert a + b == b;
    } else {
      assert (a + b)[1..] == a[1..] + b;
      FilterConcat(a[1..], b, keep);
    }
  }

  /** A filter that keeps everything is the identity. */
  lemma {:induction false} FilterKeepsAll<T(!new)>(s: seq<T>, keep: T -> bool)
    requires forall x :: x in s ==> keep(x)
    ensures Filter(s, keep) == s
  {
    if s != [] {
      assert forall x :: x in s[1..] ==> x in s;
      FilterKeepsAll(s[1..], keep);
    }
  }

  /** Filtering twice with the same test is filtering once. */
  lemma FilterIdempotent<T(!new)>(s: seq<T>, keep: T -> bool)
    ensures Filter(Filter(s, keep), keep) == Filter(s, keep)
  {
    FilterKeepsAll(Filter(s, keep), keep);
  }

  /** Two sequences with the same multiset have the same values. */
  lemma SameElems<T>(a: seq<T>, b: seq<T>)
    requires multiset(a) == multiset(b)
    ensures forall x :: x in a <==> x in b
  {
    forall x ensures x in a <==> x in b {
      assert x in a <==> x in multiset(a);
      assert x in b <==> x in multiset(b);
    }
  }

  /** No value occurs twice. */
  predicate NoDup<T(==)>(s: seq<T>) {
    forall i, j :: 0 <= i < j < |s| ==> s[i] != s[j]
  }

  /** The set of values of a sequence. */
  function Elems<T(!new)>(s: seq<T>): (r: set<T>)
    ensures forall x :: x in r <==> x in s
  {
    set x | x in s
  }

  /** A sequence has at least as many positions as distinct values, with equality exactly when nothing repeats. */
  lemma {:induction false} ElemsCard<T(!new)>(s: seq<T>)
    ensures |Elems(s)| <= |s|
    ensures |Elems(s)| == |s| <==> NoDup(s)
  {
    if s != [] {
      var t := s[1..];
      ElemsCard(t);
      assert Elems(s) == {s[0]} + Elems(t);
      if s[0] in t {
        assert Elems(s) == Elems(t);
        var j :| 0 <= j < |t| && t[j] == s[0];
        assert s[0] == s[j + 1];
      } else {
        assert NoDup(s) <==> NoDup(t) by {
          if NoDup(t) {
            forall i, j | 0 <= i < j < |s| ensures s[i] != s[j] {
              if i > 0 { assert s[i] == t[i - 1] && s[j] == t[j - 1]; }
              else { assert s[j] == t[j - 1]; }
            }
          }
          if NoDup(s) {
            forall i, j | 0 <= i < j < |t| ensures t[i] != t[j] {
              assert t[i] == s[i + 1] && t[j] == s[j + 1];
            }
          }
        }
      }
    }
  }

  /** A subset with as many elements as its superset is the superset. */
  lemma SubsetCard<T>(a: set<T>, b: set<T>)
    requires a <= b && |a| == |b|
    ensures a == b
  {
    if a != b {
      assert b - a != {} by {
        if b - a == {} {
          forall y | y in b ensures y in a { assert y !in b - a; }
        }
      }
      var x :| x in b - a;
      assert a <= b - {x};
      assert |b - {x}| == |b| - 1;
      SubsetCardLe(a, b - {x});
      assert false;
    }
  }

  lemma {:induction false} SubsetCardLe<T>(a: set<T>, b: set<T>)
    requires a <= b
    ensures |a| <= |b|
    decreases b
  {
    if b != {} {
      var x :| x in b;
      SubsetCardLe(a - {x}, b - {x});
    }
  }

  /** `Array.from(new Set(s))`: each value once, at the position of its first occurrence. */
  function Dedup<T(==,!new)>(s: seq<T>): (r: seq<T>)
    ensures NoDup(r)
    ensures forall x :: x in r <==> x in s
    decreases |s|
  {
    if s == [] then []
    else
      var d := Dedup(s[..|s| - 1]);
      var x := s[|s| - 1];
      assert forall y :: y in s <==> y in s[..|s| - 1] || y == x by {
        assert s == s[..|s| - 1] + [x];
      }
      if x in d then d else d + [x]
  }

  /** A sequence without repetitions is its own de-duplication. */
  lemma {:induction false} DedupOfNoDup<T(!new)>(s: seq<T>)
    requires NoDup(s)
    ensures Dedup(s) == s
    decreases |s|
  {
    if s != [] {
      var p := s[..|s| - 1];
      assert NoDup(p);
      DedupOfNoDup(p);
      assert s[|s| - 1] !in p;
      assert s == p + [s[|s| - 1]];
    }
  }

  /** Appending values that are all already present adds nothing. */
  lemma {:induction false} DedupAppendPresent<T(!new)>(a: seq<T>, b: seq<T>)
    requires NoDup(a)
    requires forall x :: x in b ==> x in a
    ensures Dedup(a + b) == a
    decreases |b|
  {
    if b == [] {
      assert a + b == a;
      DedupOfNoDup(a);
    } else {
      var b' := b[..|b| - 1];
      assert (a + b)[..|a + b| - 1] == a + b';
      assert forall x :: x in b' ==> x in b;
      DedupAppendPresent(a, b');
      assert (a + b)[|a + b| - 1] == b[|b| - 1];
    }
  }

  /** The de-duplication of a prefix is a prefix of the de-duplication, and what follows it is new. */
  lemma {:induction false} DedupPrefix<T(!new)>(a: seq<T>, b: seq<T>)
    ensures Dedup(a) <= Dedup(a + b)
    ensures forall i :: |Dedup(a)| <= i < |Dedup(a + b)| ==> Dedup(a + b)[i] in b && Dedup(a + b)[i] !in a
    decreases |b|
  {
    if b == [] {
      assert a + b == a;
    } else {
      var b' := b[..|b| - 1];
      assert (a + b)[..|a + b| - 1] == a + b';
      assert forall x :: x in b' ==> x in b;
      DedupPrefix(a, b');
      assert (a + b)[|a + b| - 1] == b[|b| - 1];
    }
  }

  /** `s.findIndex(found)`: the first matching position, or -1. */
  function FindIndex<T>(s: seq<T>, found: T -> bool): (r: int)
    ensures -1 <= r < |s|
    ensures r == -1 <==> forall i :: 0 <= i < |s| ==> !found(s[i])
    ensures r >= 0 ==> found(s[r]) && forall i :: 0 <= i < r ==> !found(s[i])
  {
    if s == [] then -1
    else if found(s[0]) then 0
    else
      var k := FindIndex(s[1..], found);
      if k == -1 then -1 else k + 1
  }

  /** Ascending by `key`. */
  predicate SortedBy<T>(s: seq<T>, key: T -> int) {
    forall i, j :: 0 <= i < j < |s| ==> key(s[i]) <= key(s[j])
  }

  /** Inserts `x` after every element whose key does not exceed its own. */
  function InsertBy<T>(x: T, s: seq<T>, key: T -> int): (r: seq<T>)
    requires SortedBy(s, key)
    ensures SortedBy(r, key)
    ensures multiset(r) == multiset(s) + multiset{x}
    ensures |r| == |s| + 1
  {
    if s == [] then [x]
    else if key(x) < key(s[0]) then [x] + s
    else
      var t := InsertBy(x, s[1..], key);
      assert s == [s[0]] + s[1..];
      InsertBehindHead(s[0], x, s[1..], t, key);
      [s[0]] + t
  }

  /** Placing the old head in front of the insertion into the tail keeps the order. */
  lemma InsertBehindHead<T>(h: T, x: T, rest: seq<T>, t: seq<T>, key: T -> int)
    requires SortedBy([h] + rest, key)
    requires key(h) <= key(x)
    requires SortedBy(t, key)
    requires multiset(t) == multiset(rest) + multiset{x}
    ensures SortedBy([h] + t, key)
  {
    forall i | 0 <= i < |t| ensures key(h) <= key(t[i]) {
      assert t[i] in multiset(t);
      if t[i] != x {
        assert t[i] in multiset(rest);
        var j :| 0 <= j < |rest| && rest[j] == t[i];
        assert ([h] + rest)[0] == h && ([h] + rest)[j + 1] == rest[j];
        assert key(h) <= key(rest[j]);
      }
    }
    var u := [h] + t;
    forall i, j | 0 <= i < j < |u| ensures key(u[i]) <= key(u[j]) {
      if i > 0 { assert u[i] == t[i - 1] && u[j] == t[j - 1]; }
      else { assert u[j] == t[j - 1]; }
    }
  }

  /** A stable insertion sort: ascending by `key`, ties keep their input order. */
  function SortBy<T>(s: seq<T>, key: T -> int): (r: seq<T>)
    ensures SortedBy(r, key)
    ensures multiset(r) == multiset(s)
    ensures |r| == |s|
    decreases |s|
  {
    if s == [] then []
    else
      assert s == s[..|s| - 1] + [s[|s| - 1]];
      InsertBy(s[|s| - 1], SortBy(s[..|s| - 1], key), key)
  }
}

=== FILE: session_controller.dfy ===
/**
 * The session handlers of session.controller.ts: the caller's list of active
 * profiles, written wholesale and read back.
 *
 * The profile schema declares no `activeProfiles` path, so under Mongoose's
 * default strict mode the update drops the list: `SetActiveProfilesAsWritten`
 * models that, and `SetActiveProfiles` the handler with the path declared.
 */
module SessionController {
  import opened Wrappers
  import opened Js
  import opened Models
  import opened Store

  /** The `{userId, name, activeProfiles}` payload; `None` is an undefined list. */
  datatype SessionView = SessionView(userId: Id, name: string, activeProfiles: Option<seq<Json>>)

  /** The body check, made before any lookup: a non-empty array. */
  predicate NonEmptyArray(v: Json) {
    v.Arr? && |v.items| > 0
  }

  /** The caller, when it names a stored profile. */
  predicate KnownActor(db: Db, actor: Option<Id>) {
    actor.Some? && actor.value in db.profiles
  }

  /**
   * POST /session with a schema that declares `activeProfiles`: the list
   * replaces the stored one wholesale (no merge, no `updated_at` refresh).
   */
  function SetActiveProfiles(db: Db, actor: Option<Id>, activeProfiles: Json): (r: Outcome<SessionView>)
    ensures r.response.status in {200, 400, 404}
    ensures r.response.status == 400 <==> !NonEmptyArray(activeProfiles)
    ensures r.response.status == 404 <==> NonEmptyArray(activeProfiles) && !KnownActor(db, actor)
    ensures r.db.events == db.events && r.db.logs == db.logs
    ensures r.response.status != 200 ==> r.db == db
    ensures WellKeyed(db) ==> WellKeyed(r.db)
    ensures r.response.status == 200 ==>
      && var prior := db.profiles[actor.value];
      && r.db == db.(profiles := db.profiles[actor.value := prior.(activeProfiles := Some(activeProfiles.items))])
      && r.response.data == Some(SessionView(prior.id, prior.name, Some(activeProfiles.items)))
  {
    if !NonEmptyArray(activeProfiles) then
      Outcome(db, Fail(400, "activeProfiles must be a non-empty array"))
    else if !KnownActor(db, actor) then
      Outcome(db, Fail(404, "User not found"))
    else
      var p := db.profiles[actor.value].(activeProfiles := Some(activeProfiles.items));
      Outcome(db.(profiles := db.profiles[actor.value := p]),
              Ok(200, "Active profiles updated successfully", SessionView(p.id, p.name, p.activeProfiles)))
  }

  /**
   * POST /session as written: the same checks, but the strict schema strips
   * the unknown path, so nothing is stored and the echoed list is undefined.
   */
  function SetActiveProfilesAsWritten(db: Db, actor: Option<Id>, activeProfiles: Json): (r: Outcome<SessionView>)
    ensures r.response.status in {200, 400, 404}
    ensures r.response.status == 400 <==> !NonEmptyArray(activeProfiles)
    ensures r.response.status == 404 <==> NonEmptyArray(activeProfiles) && !KnownActor(db, actor)
    ensures r.db == db
    ensures r.response.status == 200 ==>
      r.response.data == Some(SessionView(actor.value, db.profiles[actor.value].name, db.profiles[actor.value].activeProfiles))
  {
    if !NonEmptyArray(activeProfiles) then
      Outcome(db, Fail(400, "activeProfiles must be a non-empty array"))
    else if !KnownActor(db, actor) then
      Outcome(db, Fail(404, "User not found"))
    else
      var p := db.profiles[actor.value];
      Outcome(db, Ok(200, "Active profiles updated successfully", SessionView(actor.value, p.name, p.activeProfiles)))
  }

  /** GET /session: the stored list, or `[]` when none was ever set. */
  function GetActiveProfiles(db: Db, actor: Option<Id>): (r: Response<SessionView>)
    ensures r.status in {200, 404}
    ensures r.status == 404 <==> !KnownActor(db, actor)
    ensures r.status == 200 ==>
      && var p := db.profiles[actor.value];
      && r.data == Some(SessionView(p.id, p.name, Some(p.activeProfiles.GetOr([]))))
  {
    if !KnownActor(db, actor) then Fail(404, "User not found")
    else
      var p := db.profiles[actor.value];
      Ok(200, "Active profiles fetched successfully", SessionView(p.id, p.name, Some(p.activeProfiles.GetOr([]))))
  }

  /** Reading back after a successful set returns exactly the list sent, whatever was there before. */
  lemma SetThenGet(db: Db, actor: Option<Id>, items: seq<Json>)
    requires KnownActor(db, actor) && items != []
    ensures SetActiveProfiles(db, actor, Arr(items)).response.status == 200
    ensures GetActiveProfiles(SetActiveProfiles(db, actor, Arr(items)).db, actor).data.value.activeProfiles == Some(items)
  {
  }

  /**
   * As written, a successful set is lost: a profile that never had a list
   * still reads back `[]` after any non-empty list was sent.
   */
  lemma SetAsWrittenIsLost(db: Db, actor: Option<Id>, items: seq<Json>)
    requires KnownActor(db, actor) && items != []
    requires db.profiles[actor.value].activeProfiles.None?
    ensures SetActiveProfilesAsWritten(db, actor, Arr(items)).response.status == 200
    ensures GetActiveProfiles(SetActiveProfilesAsWritten(db, actor, Arr(items)).db, actor).data.value.activeProfiles == Some([])
    ensures Some([]) != Some(items)
  {
  }
}

=== FILE: store.dfy ===
/**
 * The persisted state the handlers read and write, and the response
 * envelope `{status, success, message, data}` they answer with.
 */
module Store {
  import opened Wrappers
  import opened Seqs
  import opened Models

  /** The three collections: events and profiles by id, the audit log in insertion order. */
  datatype Db = Db(events: map<Id, Event>, profiles: map<Id, Profile>, logs: seq<EventLog>)

  /** Every document is stored under its own id. */
  predicate WellKeyed(db: Db) {
    && (forall k :: k in db.events ==> db.events[k].id == k)
    && (forall k :: k in db.profiles ==> db.profiles[k].id == k)
  }

  /** Storing a profile under its own id keeps the store well keyed. */
  lemma PutProfileWellKeyed(db: Db, p: Profile)
    ensures WellKeyed(db) ==> WellKeyed(db.(profiles := db.profiles[p.id := p]))
  {
  }

  /** The HTTP status, the `success` flag, the message and the optional payload. */
  datatype Response<T> = Response(status: int, success: bool, message: string, data: Option<T>)

  function Ok<T>(status: int, message: string, data: T): (r: Response<T>)
    ensures r.success && r.data == Some(data)
  {
    Response(status, true, message, Some(data))
  }

  function Fail<T>(status: int, message: string): (r: Response<T>)
    ensures !r.success && r.data.None?
  {
    Response(status, false, message, None)
  }

  /** The state after a request, with the response sent. */
  datatype Outcome<T> = Outcome(db: Db, response: Response<T>)

  /** True when some stored log already uses `id`. */
  predicate LogIdTaken(logs: seq<EventLog>, id: Id) {
    exists i :: 0 <= i < |logs| && logs[i].id == id
  }

  /** No two stored logs share an id (the collection's unique `_id` index). */
  predicate UniqueLogIds(logs: seq<EventLog>) {
    forall i, j :: 0 <= i < |logs| && 0 <= j < |logs| && i != j ==> logs[i].id != logs[j].id
  }

  // ----------------------------------------------- Queries on the events

  /** The stored events whose `keep` holds, one id each, in some order. */
  method KeysWhere(events: map<Id, Event>, keep: Event -> bool) returns (ks: seq<Id>)
    ensures NoDup(ks)
    ensures forall k :: k in ks <==> k in events && keep(events[k])
  {
    ks := [];
    var rest := events.Keys;
    while rest != {}
      invariant rest <= events.Keys
      invariant NoDup(ks)
      invariant forall k :: k in ks <==> k in events && k !in rest && keep(events[k])
      decreases rest
    {
      var k :| k in rest;
      if keep(events[k]) {
        ks := ks + [k];
      }
      rest := rest - {k};
    }
  }

  /** The start of the event stored under `k` (a sort key over ids). */
  function StartKey(events: map<Id, Event>): (Id -> int) {
    (k: Id) => if k in events then events[k].startUtc else 0
  }

  /** Sorting a list without repetitions gives a list without repetitions. */
  lemma SortKeepsNoDup(a: seq<Id>, key: Id -> int)
    requires NoDup(a)
    ensures NoDup(SortBy(a, key))
  {
    var b := SortBy(a, key);
    SameElems(a, b);
    assert Elems(a) == Elems(b);
    ElemsCard(a);
    ElemsCard(b);
  }

  /** The ids of the stored events with `keep`, ascending by `startUtc`. */
  method SortedKeysWhere(events: map<Id, Event>, keep: Event -> bool) returns (ks: seq<Id>)
    ensures NoDup(ks)
    ensures forall k :: k in ks <==> k in events && keep(events[k])
    ensures forall i, j :: 0 <= i < j < |ks| ==> events[ks[i]].startUtc <= events[ks[j]].startUtc
  {
    var found := KeysWhere(events, keep);
    ks := SortBy(found, StartKey(events));
    SameElems(found, ks);
    SortKeepsNoDup(found, StartKey(events));
    assert SortedBy(ks, StartKey(events));
  }
}

=== FILE: time.dfy ===
/**
 * Instants and the timezone library the handlers call. The zone database
 * and its offset/DST arithmetic are not modelled: they enter as the
 * functions of a `TzLib` value supplied by the caller.
 */
module Time {
  import opened Wrappers

  /** An absolute instant, in milliseconds since the Unix epoch (UTC). */
  type Instant = int

  /**
   * - `zones`: the identifiers the code reads from `dayjs.tz.names()`, in its order,
   *   on the assumption that the installed plugin provides that function;
   * - `parse`: casting a date string to an instant (`None` for an invalid date);
   * - `format`: `dayjs.utc(t).tz(zone).format()`, `None` when the library throws on the zone;
   * - `shift`: `dayjs.utc(t).tz(zone).toDate()`, `None` when the library throws on the zone.
   */
  datatype TzLib = TzLib(
    zones: seq<string>,
    parse: string -> Option<Instant>,
    format: (Instant, string) -> Option<string>,
    shift: (Instant, string) -> Option<Instant>)

  /** `dayjs(end).isAfter(dayjs(start))`: false when either string is not a date. */
  predicate IsAfter(parse: string -> Option<Instant>, end: string, start: string) {
    parse(end).Some? && parse(start).Some? && parse(end).value > parse(start).value
  }

  /** `dayjs(end).isSame(dayjs(start))`: false when either string is not a date. */
  predicate IsSame(parse: string -> Option<Instant>, end: string, start: string) {
    parse(end).Some? && parse(start).Some? && parse(end).value == parse(start).value
  }

  /** `dayjs(end).isBefore(dayjs(start))`: false when either string is not a date. */
  predicate IsBefore(parse: string -> Option<Instant>, end: string, start: string) {
    parse(end).Some? && parse(start).Some? && parse(end).value < parse(start).value
  }
}

=== FILE: timezone_controller.dfy ===
/**
 * The zone handlers of timezone.controller.ts: the supported list, a user's
 * zone, changing it, and converting one instant into a zone.
 */
module TimezoneController {
  import opened Wrappers
  import opened Js
  import opened Time
  import opened Models
  import opened Store
  import ProfileController

  /** GET /timezones: the library's zone names, unchanged. */
  function GetSupportedTimezones(lib: TzLib): (r: Response<seq<string>>)
    ensures r.status == 200 && r.success
    ensures r.data == Some(lib.zones)
  {
    Ok(200, "Supported timezones fetched successfully", lib.zones)
  }

  datatype UserZone = UserZone(userId: Id, name: string, timezone: string)

  /** GET /timezone/:userId: the stored zone, or "UTC" when it is empty. */
  function GetUserTimezone(db: Db, userId: Id): (r: Response<UserZone>)
    ensures r.status in {200, 404}
    ensures r.status == 404 <==> userId !in db.profiles
    ensures r.status == 200 ==>
      && r.data.Some?
      && var p := db.profiles[userId];
      && r.data.value.userId == p.id && r.data.value.name == p.name
      && r.data.value.timezone != ""
      && (p.timezone != "" ==> r.data.value.timezone == p.timezone)
      && (p.timezone == "" ==> r.data.value.timezone == "UTC")
  {
    if userId !in db.profiles then Fail(404, "User not found")
    else
      var p := db.profiles[userId];
      Ok(200, "User timezone fetched successfully", UserZone(p.id, p.name, ProfileController.ZoneOf(p)))
  }

  /** `getAllTimezones().includes(tz)`: strict equality with a listed name. */
  predicate Listed(tz: Json, zones: seq<string>) {
    tz.Str? && tz.s in zones
  }

  /**
   * PATCH /timezone/:userId. The zone must be truthy and listed (checked before
   * any lookup); only the zone changes, without an `updated_at` refresh.
   */
  function UpdateUserTimezone(db: Db, userId: Id, tz: Json, lib: TzLib): (r: Outcome<UserZone>)
    ensures r.response.status in {200, 400, 404}
    ensures r.response.status == 400 <==> !Listed(tz, lib.zones) || tz == Str("")
    ensures r.response.status == 404 <==> Listed(tz, lib.zones) && tz != Str("") && userId !in db.profiles
    ensures r.db.events == db.events && r.db.logs == db.logs
    ensures r.response.status != 200 ==> r.db == db
    ensures WellKeyed(db) ==> WellKeyed(r.db)
    ensures r.response.status == 200 ==>
      && var prior := db.profiles[userId];
      && r.db.profiles == db.profiles[userId := prior.(timezone := tz.s)]
      && r.response.data == Some(UserZone(prior.id, prior.name, tz.s))
  {
    if !Truthy(tz) || !Listed(tz, lib.zones) then Outcome(db, Fail(400, "Invalid timezone provided"))
    else if userId !in db.profiles then Outcome(db, Fail(404, "User not found"))
    else
      var p := db.profiles[userId].(timezone := tz.s);
      Outcome(db.(profiles := db.profiles[userId := p]), Ok(200, "User timezone updated successfully", UserZone(p.id, p.name, p.timezone)))
  }

  /**
   * The instant `dayjs.utc(v)` reads from a truthy request value: a string is
   * parsed, a number is milliseconds, `true` is 1 ms (`new Date(true)`), and an
   * array or object goes through its string form. `None` is an invalid date.
   */
  function InstantOf(v: Json, parse: string -> Option<Instant>): (r: Option<Instant>)
    ensures v.Str? ==> r == parse(v.s)
    ensures v.Num? ==> r == Some(v.n)
  {
    match v
    case Str(s) => parse(s)
    case Num(n) => Some(n)
    case Bool(b) => if b then Some(1) else Some(0)
    case Arr(_) => parse(ToJsString(v))
    case Obj => parse(ToJsString(v))
    case _ => None
  }

  /** How dayjs renders an invalid date. */
  const InvalidDate := "Invalid Date"

  datatype Conversion = Conversion(original: Json, converted: string, timezone: string)

  /**
   * POST /timezone/convert. Both inputs are required, then the zone must be
   * listed; an unparseable timestamp converts to "Invalid Date", and a
   * library failure answers 500.
   */
  function ConvertToTimezone(ts: Json, tz: Json, lib: TzLib): (r: Response<Conversion>)
    ensures r.status in {200, 400, 500}
    ensures r.status == 400 <==> !Truthy(ts) || !Truthy(tz) || !Listed(tz, lib.zones)
    ensures r.status == 500 <==>
      && Truthy(ts) && Truthy(tz) && Listed(tz, lib.zones)
      && InstantOf(ts, lib.parse).Some?
      && lib.format(InstantOf(ts, lib.parse).value, tz.s).None?
    ensures r.status == 200 ==>
      && r.data.Some?
      && r.data.value.original == ts && r.data.value.timezone == tz.s
      && (InstantOf(ts, lib.parse).None? ==> r.data.value.converted == InvalidDate)
      && (InstantOf(ts, lib.parse).Some? ==> Some(r.data.value.converted) == lib.format(InstantOf(ts, lib.parse).value, tz.s))
  {
    if !Truthy(ts) || !Truthy(tz) then Fail(400, "timestampUtc and timezone are required")
    else if !Listed(tz, lib.zones) then Fail(400, "Invalid timezone provided")
    else
      match InstantOf(ts, lib.parse)
      case None => Ok(200, "Timestamp converted successfully", Conversion(ts, InvalidDate, tz.s))
      case Some(t) =>
        match lib.format(t, tz.s)
        case None => Fail(500, "Error converting timestamp")
        case Some(c) => Ok(200, "Timestamp converted successfully", Conversion(ts, c, tz.s))
  }

  /** Changing the zone and reading it back returns the new zone; nothing but the zone changed. */
  lemma UpdateThenGet(db: Db, userId: Id, zone: string, lib: TzLib)
    requires zone in lib.zones && zone != "" && userId in db.profiles
    ensures UpdateUserTimezone(db, userId, Str(zone), lib).response.status == 200
    ensures GetUserTimezone(UpdateUserTimezone(db, userId, Str(zone), lib).db, userId).data.value.timezone == zone
    ensures UpdateUserTimezone(db, userId, Str(zone), lib).db.profiles[userId].(timezone := db.profiles[userId].timezone)
            == db.profiles[userId]
  {
  }

  /**
   * Both handlers that take a zone refuse a given zone exactly when it is not
   * among the names the supported-zones endpoint lists.
   */
  lemma RefusedIffUnsupported(db: Db, userId: Id, ts: Json, tz: Json, lib: TzLib)
    requires Truthy(ts) && Truthy(tz)
    ensures var supported := GetSupportedTimezones(lib).data.value;
      && (UpdateUserTimezone(db, userId, tz, lib).response.status == 400 <==> !(tz.Str? && tz.s in supported))
      && (ConvertToTimezone(ts, tz, lib).status == 400 <==> !(tz.Str? && tz.s in supported))
  {
  }
}

=== FILE: timezone_schema.dfy ===
/** updateUserTimezoneSchema / convertTimezoneSchema of timezone.schema.ts as predicates. */
module TimezoneSchema {
  import opened Js
  import opened Zod
  import opened Time
  import opened Models
  import opened Store
  import TimezoneController

  datatype ZoneBody = ZoneBody(timezone: Json)

  datatype ConvertBody = ConvertBody(timestampUtc: Json, timezone: Json)

  /** updateUserTimezoneSchema: a non-empty zone string. */
  predicate UpdateUserTimezoneSchema(b: ZoneBody) {
    NonEmptyString(b.timezone)
  }

  /** convertTimezoneSchema: a non-empty timestamp string and a non-empty zone string. */
  predicate ConvertTimezoneSchema(b: ConvertBody) {
    NonEmptyString(b.timestampUtc) && NonEmptyString(b.timezone)
  }

  /** A missing or empty value fails either schema. */
  lemma SchemasRejectMissing(v: Json, other: Json)
    requires v == Undefined || v == Str("")
    ensures !UpdateUserTimezoneSchema(ZoneBody(v))
    ensures !ConvertTimezoneSchema(ConvertBody(v, other))
    ensures !ConvertTimezoneSchema(ConvertBody(other, v))
  {
  }

  /**
   * The schemas check no zone list: an unlisted non-empty name passes both,
   * while the handlers answer 400 for it.
   */
  lemma UnlistedZonePassesSchemasOnly(db: Db, userId: Id, zone: string, ts: string, lib: TzLib)
    requires zone != "" && zone !in lib.zones && ts != ""
    ensures UpdateUserTimezoneSchema(ZoneBody(Str(zone)))
    ensures ConvertTimezoneSchema(ConvertBody(Str(ts), Str(zone)))
    ensures TimezoneController.UpdateUserTimezone(db, userId, Str(zone), lib).response.status == 400
    ensures TimezoneController.ConvertToTimezone(Str(ts), Str(zone), lib).status == 400
  {
  }
}

=== FILE: wrappers.dfy ===
/** Optional values: `undefined` / `null` on one side, a present value on the other. */
module Wrappers {

  datatype Option<+T> = None | Some(value: T) {

    /** The present value, or `default` when absent (the `??` operator). */
    function GetOr(default: T): T {
      match this
      case Some(v) => v
      case None => default
    }
  }
}

=== FILE: zod.dfy ===
/**
 * The zod building blocks the request schemas use, as predicates on a
 * request value. A missing key is `Undefined`; `optional()` admits it and
 * nothing else (in particular not `null`). zod does not trim: `min(1)`
 * counts characters, so "   " passes.
 */
module Zod {
  import opened Js

  /** `z.string().min(1)`. */
  predicate NonEmptyString(v: Json) {
    v.Str? && |v.s| >= 1
  }

  /** `z.string().optional()`. */
  predicate OptString(v: Json) {
    v.Undefined? || v.Str?
  }

  /** `z.string().min(1).optional()`. */
  predicate OptNonEmptyString(v: Json) {
    v.Undefined? || NonEmptyString(v)
  }

  /** `z.array(z.string().min(1))`. */
  predicate IdArray(v: Json) {
    v.Arr? && forall i :: 0 <= i < |v.items| ==> NonEmptyString(v.items[i])
  }
}
